=== FILE: README.md ===
# A verified model of the voxel game's core

The game is a side-scrolling voxel sandbox written in one JavaScript file,
`game.js`. The world is a set of columns, each 100 rows deep. Columns are
generated lazily from value noise: a height, biome layers, caves, ores and
occasional trees. Columns far from the camera are evicted unless the player
has edited them. The player can:

- walk, jump and fall, with axis-aligned collisions;
- place and break blocks with tiered tools;
- craft from recipes;
- eat meat;
- fight mobs that come out at night.

Felled trees grow back after a minute.

This project restates that core in Dafny and proves what it promises. All
randomness and time come in as explicit parameters:

- `hash2D`, `Math.sin(col * 0.05)` and every `Math.random` draw are oracle values.
- `Date.now()` is an integer `now`.
- The lighting factor is a real in the caller's hands.

Pixel geometry uses exact `real` arithmetic.

The world store calls a column maker held by its `Generator`. Every column
the maker builds is full height and unmodified. `World.Faithful` says that
the maker is `Terrain.Generate` over the session's landscape and draws, and
`World.GameGenerator` builds the game's maker.

Modules follow the structure of the program:

| module | file | what it holds |
|---|---|---|
| `Blocks` | blocks.dfy | block kinds, tools, inventory keys, the required-tool and drop tables |
| `Noise` | noise.dfy | `fract` and the bilinear `caveNoise` |
| `Terrain` | terrain.dfy | `generateColumn`: height, layers, caves, ore passes, trees |
| `World` | world.dfy | the sparse store: lazy generation, the view window with eviction, `getGroundLevel`, cell edits |
| `Inventory` | inventory.dfy | counts, recipes, `craftFromTable`, `equipTool`, `selectBlock` |
| `Bodies` | bodies.dfy | player, mob and animal records and their boxes |
| `Collision` | collision.dfy | the player's push-out, the settle loop, `snapToGround`, `checkIfOnGround` |
| `Fauna` | fauna.dfy | animal and mob spawning and movement, the caps |
| `Interaction` | interaction.dfy | the click handler, felled-tree records, `regrowTree` |
| `Clock` | clock.dfy | `getTimeOfDay` |
| `Vitals` | vitals.dfy | fall damage, mob contact, regeneration, eating |
| `Tick` | tick.dfy | one frame of `update`, composed from the above |

## Model

| member | source | states |
|---|---|---|
| Blocks.Tier | game.js:200-206 | the hand ranks 0, the diamond pickaxe 4, and every other tool in between; `Blocks.TierLadder` orders all five |
| Blocks.TierLadder | game.js:200-206 | the ranks rise strictly from hand to wooden, stone, iron and diamond pickaxe; the hand breaks everything but stone, sandstone, ice and the ores, a wooden pickaxe also those three, a stone pickaxe also coal and iron ore, an iron pickaxe everything |
| Blocks.BreaksMonotone | game.js:200-206 | distinct tools have distinct ranks, a higher-ranked tool breaks every block a lower-ranked one breaks, and the diamond pickaxe breaks every block |
| Blocks.RequiredTool | game.js:169-177 | exactly stone, sandstone, ice and the four ores need a tool: a wooden pickaxe exactly for stone, sandstone and ice, a stone pickaxe exactly for coal and iron ore, an iron pickaxe exactly for gold and diamond ore; none needs more |
| Blocks.DropFor | game.js:178-199 | a block drops itself, except that stone drops cobblestone and the four ores drop coal, iron ingot, gold ingot and diamond; no block drops meat, a tool or the undefined key |
| Blocks.Placeable | game.js:225 | no placeable block is air, and every placeable block breaks back into itself, except stone, which yields cobblestone |
| Noise.Fract | game.js:48 | the fractional part lies in [0, 1) and the removed part is an integer |
| Noise.CaveNoise | game.js:49-64 | the bilinear value noise; `Noise.CaveNoiseOnLatticeLines`, `Noise.CaveNoiseAtLattice` and `Noise.CaveNoiseInUnit` state what it computes |
| Noise.CaveNoiseOnLatticeLines | game.js:49-64 | on a vertical lattice line the noise is the interpolation between the two lattice hashes above and below the sample, and on a horizontal line between the two beside it |
| Noise.CaveNoiseInUnit | game.js:49-64 | when the lattice hash lies in [0, 1), the interpolated noise lies in [0, 1) too |
| Noise.CaveNoiseAtLattice | game.js:54-63 | at a lattice point the noise equals the hash there |
| Noise.LerpBetween | game.js:59-63 | linear interpolation with weight in [0, 1] stays between its end points |
| Terrain.Ground | game.js:73-76 | the ground row always lies in [5, 90]; inside that range it is the floor of the exact height, and outside it it is clamped to the nearer end |
| Terrain.GroundNaturalRange | game.js:73-76 | with the hash in [0, 1) and a sine value in [-1, 1], the ground lies between rows 7 and 32, so the clamp never bites |
| Terrain.Surface | game.js:78-92 | grass or snow appears exactly outside the desert with the ground row at most 25; deeper ground gets rock in the forest and ice in the tundra, and the desert always gets sand |
| Terrain.Subsurface | game.js:78-92 | dirt lies exactly under grass, sandstone exactly in the desert, stone otherwise |
| Terrain.Layers | game.js:94-99 | the top-down fill; `Terrain.LayersShape` states its shape |
| Terrain.LayersShape | game.js:94-99 | the filled column has 100 rows, exactly the rows above the ground are air, and the ground row holds the biome's surface block |
| Terrain.Carve | game.js:94-103 | after filling and cave carving: air above the ground, the biome surface at the ground, subsurface or air for three rows, stone or air deeper, and stone in the last three rows; between the ground and the last three rows a cell is air exactly when its cave sample is below 0.3 |
| Terrain.CoalPass | game.js:105-108 | every cell is unchanged, or was stone and became coal ore or mossy stone inside rows ground+4 to 69; there a stone cell becomes coal exactly under a coal sample below 0.1, else mossy stone exactly under a moss draw below 0.005 |
| Terrain.OrePass | game.js:109-117 | every cell is unchanged, or was stone and became the pass's ore inside the pass's band; inside the band a stone cell becomes the ore exactly when its sample is below the pass's threshold |
| Terrain.OrePassKeepsOrigin | game.js:105-117 | one more ore pass keeps every row either as carved or an in-band ore that replaced stone |
| Terrain.Mine | game.js:105-117 | after all four ore passes, every row is as carved or an ore, in its band, where the carved column had stone; `Terrain.DeepOres` states which ore the deep rows get |
| Terrain.DeepOre | game.js:109-117 | from row 70 down, a row that was not carved as stone is as carved; a carved stone row is gold under a low gold sample above row 90, else diamond under a low diamond sample from row 80 to 94, else stone |
| Terrain.DeepOres | game.js:109-117 | `Terrain.DeepOre` for every row from 70 to 99 |
| Terrain.Tree | game.js:120-128 | the trunk-and-crown write; `Terrain.TreeShape` states its shape |
| Terrain.TreeShape | game.js:120-128 | only the three rows above the ground change: the two nearest become trunk and the third the crown, and rows outside the column are skipped |
| Terrain.TreeTwice | game.js:120-128 | putting the same tree again changes nothing |
| Terrain.Plant | game.js:119-129 | a tree writes only the three rows above the ground, only tree blocks, and a desert tree only the row right above the sand; under the chance (0.6 on grass next to a trunk, 0.1 on other grass, 0.05 on sand, 0.08 on snow) grass gets two wood blocks and leaves, sand one wood block, snow two spruce wood blocks and spruce leaves; at or above it the column is unchanged |
| Terrain.Generate | game.js:68-133 | a fresh column has 100 rows and is unmodified |
| Terrain.GenerateShape | game.js:68-133 | in a fresh column air lies above the three tree rows, those rows hold only air or tree blocks, the surface block lies at the ground, the last three rows are stone, every row from the ground down is as carved or an in-band ore, and above desert sand only the row right over it can differ from air |
| World.GameGenerator | game.js:68-133 | the game's column maker is terrain generation over the session's landscape and draws |
| World.EnsureColumn | game.js:68-69 | only the requested column is added, and only when absent; a present column leaves the whole world unchanged, and a new column is well formed and unmodified |
| World.FirstColumn | game.js:137 | the column five to the right of the first window column is the one holding the camera's left edge |
| World.LastColumn | game.js:138 | the column five to the left of the last window column is the one holding the view's right edge |
| World.GenerateSpan | game.js:139 | the world gains exactly the missing columns of the span, keeps every present column, and is unchanged when the span is already present |
| World.Evict | game.js:140-143 | a column survives exactly when it is modified or inside the bounds, and survivors are unchanged |
| World.EnsureVisibleRange | game.js:135-144 | the window is present, present columns keep their contents, modified columns and columns within five of the window survive, and every unmodified survivor lies within five of the window |
| World.EnsureVisibleRangeIdempotent | game.js:135-144 | asking for the same view twice changes nothing the second time |
| World.GroundLevel | game.js:162-163 | the result is at most the column height, every row above it is air, and the row it names is not air |
| World.GroundLevelUnique | game.js:162-163 | the first non-air row, below nothing but air, is the only row the scan can return |
| World.GetGroundLevel | game.js:159-164 | generates the column if absent and otherwise leaves the world alone; the returned row has only air above it and is not air itself |
| World.FreshGroundLevel | game.js:159-164 | on a column the game has just generated, the scan stops at or above the generated ground, never at the sentinel 100 |
| World.Edit | game.js:559-560 | exactly one cell of one column changes, and that column is marked modified |
| Inventory.Add | game.js:310 | one count moves by the amount and every other count stays |
| Inventory.BasicRecipe | game.js:207 | only the crafting table has a basic recipe, and it needs nothing but wood |
| Inventory.TableRecipe | game.js:208-217 | exactly the four pickaxes and brick, fence, glass and mossy stone have a table recipe; each needs one or two ingredients, and every pickaxe needs five wood first |
| Inventory.RecipesWellFormed | game.js:207-217 | every recipe lists each ingredient once, in a positive amount, and never needs its own product |
| Inventory.NeededOfDistinct | game.js:309 | with distinct ingredients, the total withdrawn of an item is its line's amount, or zero when it has no line |
| Inventory.Withdraw | game.js:309 | each count drops by exactly what the ingredient list asks of that item |
| Inventory.Craft | game.js:301-313 | an unknown recipe or a missing ingredient leaves the inventory unchanged; otherwise each ingredient drops by its amount, the product rises by one, every other count stays, and no count goes negative |
| Inventory.CraftKeepsNonNegative | game.js:304-310 | after an affordable craft each ingredient count is its old count minus its amount, and no count is negative |
| Inventory.Equip | game.js:254-259 | the requested tool is taken exactly when it is the hand or the inventory holds one; otherwise the current tool stays |
| Inventory.Select | game.js:247-252 | the requested block is selected exactly when it is placeable and held; otherwise the selection stays |
| Collision.PushOut | game.js:364-384 | after the push the player touches the cell but no longer overlaps it; the push runs along the smaller overlap, by exactly that amount, away from the cell centre; that axis's velocity is zero, and only an upward push grounds the player |
| Collision.ScanRows | game.js:357-386 | health, the maximum and the counter are kept, velocities only drop to zero, grounding is never lost, and with no solid overlapping cell in the column the player is unchanged |
| Collision.ScanCols | game.js:355-387 | the same guarantees over all the columns under the box |
| Collision.ResolveCollisions | game.js:349-388 | only the columns under the box are generated, present columns are kept, and with no solid cell overlapping the box the player is unchanged |
| Collision.Resolver | game.js:349-388 | `resolveCollisions` as a pass over the world and the player; its contract is stated by `Collision.ResolverKeeps` |
| Collision.ResolverKeeps | game.js:349-388 | one resolve pass keeps health and the counter, keeps each velocity or zeroes it, never loses footing, keeps present columns and well-formedness |
| Collision.Passes | game.js:816-821 | `n` runs of a pass; `Collision.PassesKeep` carries a pass's kept facts over any number of runs |
| Collision.Landing | game.js:349-388 | a player in one column whose feet sank at least 1 and less than 20 pixels into a non-air cell, with air in the two cells above, ends with its feet on that cell's top, grounded, with zero vertical speed and the same x |
| Collision.WallStop | game.js:349-388 | a player reaching at least 1 and less than 20 pixels into a non-air cell of the next column at its top row, with air beside it, ends with its right edge on the wall, zero horizontal speed and the same height and vertical speed |
| Collision.PassesKeep | game.js:816-821 | any number of passes keeps what each pass keeps: health, velocities or zero, footing, present columns and well-formedness |
| Collision.Settle | game.js:816-821 | the result is that of exactly `passes` runs of the pass, between one and ten; `shift` is the vertical movement of the last run; every earlier run moved the player by more than 0.001, and stopping before ten means the last moved it by at most 0.001; a pass that keeps health, velocities and columns keeps them over the whole loop |
| Collision.SettleResolving | game.js:816-821 | with `resolveCollisions` as the pass, the result is that of one to ten passes, and health, velocities or zero, footing and present columns are kept |
| Collision.SnapOnto | game.js:395-400 | when the ground top lies 0 to 5 pixels below the feet, the player's feet move onto it, grounded with zero vertical speed; otherwise nothing changes |
| Collision.SnapFrom | game.js:393-401 | the player keeps its x and health, moves down by less than 5 pixels, and is either unchanged or grounded with zero vertical speed and its feet on a grid line; a player already on a grid line does not move |
| Collision.SnapFromSnaps | game.js:393-401 | if some swept column has its ground top 0 to 5 pixels below the starting feet, the player ends grounded, at rest vertically, with its feet on a grid line; if none has, the player is unchanged |
| Collision.SnapToGround | game.js:390-402 | the footprint columns are generated; the player snaps exactly when one of them has its ground top 0 to 5 pixels below the feet, and ends grounded with zero vertical speed and its feet on a grid line |
| Collision.ProbeFrom | game.js:339-345 | the probe succeeds exactly when some probed column is present and has a non-air cell, or no cell, in the foot row; on a miss every probed column is present; present columns are kept |
| Collision.CheckIfOnGround | game.js:334-347 | the player is grounded exactly when a column under the footprint has a non-air cell, or no cell, one pixel below the feet; nothing else about the player changes |
| Clock.DayRem | game.js:593 | the remainder takes the sign of the elapsed time, is smaller than a day in magnitude, and differs from it by whole days |
| Clock.TimeOfDay | game.js:591-594 | after the start the time of day lies in [0, 1), and a whole number of milliseconds into the day matches the elapsed time modulo a day |
| Clock.TimeOfDayPeriodic | game.js:591-594 | the clock repeats every 300000 ms |
| Clock.DayRemPeriodic | game.js:593 | adding whole days to a non-negative elapsed time keeps its remainder |
| Clock.TimeOfDayBeforeStart | game.js:591-594 | before the start the clock reads the negative of the reading as far after the start |
| Vitals.FallDamage | game.js:828-831 | the damage is never negative, is zero exactly for falls under 8.2 blocks, and is otherwise the floor of five per block beyond eight |
| Vitals.FallDamageMonotone | game.js:828-831 | a longer fall never hurts less |
| Vitals.TrackFall | game.js:826-837 | take-off starts a flight at the current height, flight keeps the highest point, landing charges the damage of the drop from that point, and only health changes |
| Vitals.TenBlockDrop | game.js:826-837 | landing ten blocks below the take-off point, with no tick above it, costs exactly ten health |
| Vitals.FlyKeepsHighest | game.js:826-827 | over a flight that starts with a take-off and never rises above it, the remembered height is the take-off height |
| Vitals.AirborneKeepsMin | game.js:827 | while airborne and never above the remembered point, the fall record does not change |
| Vitals.ContactDamage | game.js:845-858 | the counter counts down first; with it at zero, the first touching mob hits and resets it to 60, so at most one hit lands per tick; otherwise health is unchanged |
| Vitals.Regen | game.js:865-869 | health rises by one exactly when more than ten seconds have passed and it is below the maximum, and then the time is remembered; it never rises above the maximum |
| Vitals.Eat | game.js:1110-1116 | when running with meat, one meat is used and health rises by 20, capped at the maximum; otherwise nothing changes; counts stay non-negative |
| Vitals.GameOver | game.js:871 | the game ends once health is zero or below; `Tick.Update` ends a running game exactly then |
| Fauna.ChaseVelocity | game.js:500 | the mob heads toward the player, never stands still, and keeps its speed unless the speed was zero, when it becomes 0.5 |
| Fauna.ChaseVelocityIdempotent | game.js:500 | chasing again with the resulting velocity changes nothing |
| Fauna.ChaseApproaches | game.js:500-501 | a mob more than one step away gets strictly closer |
| Fauna.MobSpot | game.js:482-488 | for uniform draws, the spawn lies 200 to 800 pixels from the player and moves toward it at 0.5 to 1.5 |
| Fauna.SpawnMob | game.js:480-491 | a spawn happens only at lighting below 0.3 and below five mobs; it appends one mob of damage 10 standing on the ground of its column |
| Fauna.MoveMob | game.js:500-505 | the mob takes one chase step and stands on the ground of its new column |
| Fauna.MoveMobs | game.js:499-506 | every mob moves in order, with its chase velocity and damage kept, standing on the ground of its final column |
| Fauna.UpdateMobs | game.js:493-507 | at lighting 0.5 or more every mob is removed; otherwise a mob is added exactly when it is night, the spawn roll is below 0.01 and fewer than five mobs exist; the cap of five holds; every existing mob takes its chase step, and every mob stands on the ground |
| Fauna.Kinds | game.js:440 | every biome has a species and none twice; polar bears live exactly in the tundra, cows and pigs exactly outside it, chickens everywhere |
| Fauna.SpawnAnimal | game.js:439-453 | a spawn is kept exactly unless the desert's 0.7 or the tundra's 0.5 rejection roll drops it; a kept animal is a species of the biome, within 200 pixels of the player, on the ground, moving slower than 1 |
| Fauna.AnimalSpawnTick | game.js:860-863 | a spawn is attempted only below twenty animals and more than 30 s after the last attempt, which then becomes now; a due attempt adds an animal exactly unless the desert's 0.7 or the tundra's 0.5 rejection roll drops it, and always generates the spot's column; an added animal is a species of the biome, on the ground, within 200 pixels of the player and slower than 1; the list only grows at its end, and the cap of twenty holds |
| Fauna.StandingY | game.js:463 | the y at which a square body stands on a column's ground; `Fauna.StandsOnGround` states what that means |
| Fauna.StandsOnGround | game.js:447-463 | a body at the standing height has its bottom edge on the top of the column's first non-air cell, with only air above that row |
| Fauna.PushSquare | game.js:420-428 | one coordinate is kept, and a square that overlapped the cell ends touching it without overlap |
| Fauna.PushRows | game.js:413-434 | the row scan of one column of `resolveAnimalBlockCollision`; `Fauna.PushRowsStill` and `Fauna.PushRowsFrame` state that it leaves a square with no non-air cell under it alone and reads only its column |
| Fauna.PushCols | game.js:411-435 | the column scan of `resolveAnimalBlockCollision`; `Fauna.PushColsStill` and `Fauna.PushColsFrame` state the same over the footprint |
| Fauna.AnimalPush | game.js:405-436 | `resolveAnimalBlockCollision` over the square's footprint; `Fauna.AnimalPushStill` and `Fauna.AnimalPushKept` state that a clear footprint keeps the square and that only the footprint columns are read |
| Fauna.PushRowsStill | game.js:413-434 | with no non-air cell in the rows scanned, the square does not move |
| Fauna.PushColsStill | game.js:411-435 | with no non-air cell in the columns and rows scanned, the square does not move |
| Fauna.AnimalPushStill | game.js:405-436 | a square with no non-air cell under its box stays where it is |
| Fauna.PushRowsFrame | game.js:413-434 | the row scan reads only its own column: a world with that column unchanged gives the same push |
| Fauna.PushColsFrame | game.js:411-435 | the column scan reads only the columns it scans |
| Fauna.AnimalPushKept | game.js:405-436 | the push reads only the columns under the square, so a world that keeps them pushes it the same way |
| Fauna.MoveAnimal | game.js:456-464 | the animal keeps its species, turns around exactly on a roll below 0.01, ends at the x its velocity step reaches after the push out of the cells under the stepped square, and stands on the ground of the column it ends in |
| Fauna.MoveAnimals | game.js:455-465 | every animal moves in order with its own roll, ends at its own step's pushed x, and stands on the ground of its final column, all read in the final world |
| Interaction.InReach | game.js:572-577 | a cell is in reach when its centre lies within 1.5 blocks of the player's centre on both axes by hand, 2.5 with a pickaxe; `Interaction.ReachGrowsWithTool` states what follows |
| Interaction.ReachGrowsWithTool | game.js:572-577 | every pickaxe reaches whatever the hand reaches, and the cell holding the player's centre is always in reach |
| Interaction.RecordTree | game.js:579-580 | a record is added exactly when the column's ground cell is grass or snow, and it names that cell and a time 60 s later |
| Interaction.ClickCell | game.js:551-586 | a table opens; an empty cell takes the selected block exactly when one is held, using one; a non-air block needs its tool, and within reach becomes air and adds its drop; any other click changes nothing; counts stay non-negative and regrowth records stay anchored |
| Interaction.ClickCellAsWritten | game.js:551-586 | as written, a click "breaks" exactly when the cell is not air or a table, the tool is good enough (a missing cell needs a hand) and the cell is in reach; a break marks the column, credits the drop or the undefined key, and records a felled tree exactly when the cell is a tree part |
| Interaction.AsWrittenBreaksOutsideColumn | game.js:551-585 | as written, a click within reach on a row outside the column breaks it and credits the undefined key; the corrected handler changes nothing |
| Interaction.AsWrittenSkipsStandingTree | game.js:578-580 | as written, breaking any block of a standing tree never records a regrowth |
| Interaction.CorrectedRecordsFelledTree | game.js:578-583 | breaking a tree's last block above grass or snow records that ground cell for 60 s later |
| Interaction.BreakRecordsFelledTree | game.js:578-583 | the corrected break step records the grass or snow cell under a tree's last block |
| Interaction.PlaceAt | game.js:558-563 | placing writes the one cell, marks the column modified and uses up one of the placed block |
| Interaction.BreakAt | game.js:577-584 | breaking writes air into the one cell, marks the column modified, credits the drop, and only a tree block can add a regrowth record |
| Interaction.FirstCovering | game.js:527-546 | the index is the first square that contains the point, or the list length when none does |
| Interaction.Click | game.js:521-588 | paused clicks are ignored; the first mob under the point, or else the first animal, is removed for one meat; otherwise the cell under the point is clicked by the corrected ClickCell after its column is generated |
| Interaction.Without | game.js:1041 | a record survives exactly when it is not at the given spot |
| Interaction.Regrow | game.js:1030-1043 | before its time a record does nothing; once due, forest grass grows two wood blocks and leaves, tundra snow grows two spruce wood blocks and spruce leaves, other cells stay, and every record at that spot is removed |
| Interaction.RegrowPutsTree | game.js:1031-1040 | a due record on a regrowing ground cell leaves its column holding the biome's tree above that cell, with the same flag |
| Interaction.RegrowEach | game.js:843 | every record whose spot has a due record in the snapshot is removed and the rest stay; columns and their flags are kept, and a column no record names is unchanged; `Interaction.RegrowEachColumn` states what a named column becomes |
| Interaction.RegrowEachColumn | game.js:1030-1043 | when every record of a column names the same row and that row regrows, the walk leaves the column with the biome's tree above the row if a record there is due, and unchanged if none is |
| Interaction.DueAtCons | game.js:843 | a spot is due in a snapshot exactly when its first record or the rest of the snapshot makes it due |
| Interaction.RegrowTrees | game.js:843 | afterwards no remaining record is due, exactly the records with no due record at their spot remain, and they stay anchored; a column whose records all name one regrowing row holds the biome's tree above it when one of them is due and is unchanged otherwise |
| Interaction.VisibleRangeKeepsAnchored | game.js:140-142 | generating the view never evicts a column holding a regrowth record |
| Interaction.RegrowsForest | game.js:1032-1035 | a due record on forest grass regrows wood, wood and leaves above it |
| Interaction.FelledTreeRegrows | game.js:578-583 | a forest tree felled with the corrected handler grows back in place once 60 s have passed |
| Tick.Steer | game.js:803-815 | `a` wins over `d` at speed 2; a jump key on the ground sets the vertical speed to -8 plus gravity and leaves the ground; otherwise gravity adds 0.3 and the footing is kept; the player moves by its velocity |
| Tick.Land | game.js:822-823 | the footprint columns are generated and the world only gains columns; only height, vertical speed and footing change, the feet drop by less than 5 pixels; the player snaps onto a grid line at rest exactly when a footprint column has its ground top 0 to 5 pixels below the feet, and otherwise keeps its height and vertical speed; it is grounded exactly when the probe below its final feet hits a non-air cell |
| Tick.Move | game.js:803-824 | the result is a landing from the state left by one to ten resolve passes over the steered player: the footprint columns are generated, only height, vertical speed and footing change, the feet drop by less than 5 pixels, the player snaps onto a grid line at rest when a footprint column has its ground top 0 to 5 pixels below the feet and otherwise keeps its height and vertical speed; the world only gains columns; health and the counter are untouched; the player is grounded exactly when the probe below its final feet hits a non-air cell |
| Tick.Travel | game.js:803-837 | the player is moved as `Tick.Move` describes, and the fall record and health are what the fall tracking makes of the moved player; the world only gains columns, health never rises and the maximum and counter are kept |
| Tick.Scenery | game.js:839-843 | the view window is present; the only new columns are window columns; modified columns and columns within five of the window survive, and every unmodified survivor lies within five of it; a column no regrowth record names keeps its contents; a modified column whose records all name one regrowing row holds the biome's tree above it when one of them is due and is unchanged otherwise; records stay anchored, and exactly the records with no due record at their spot remain |
| Tick.Creatures | game.js:844-863 | the world only gains columns; every animal takes its step, with its own flip draw; once a spawn is due the spawn clock resets and an animal is added exactly when the biome does not reject it, and otherwise the animals and the clock stay; a mob spawns exactly on a dark frame with a low roll and room; at night every mob heads for the player and moves by its new speed; daylight leaves no mob; the first touching mob hits once the counter has run out, and otherwise health stays; both caps and the counter range hold |
| Tick.Update | game.js:800-884 | a paused or finished game does not change; a frame keeps the world well formed, regrowth records anchored, both caps, the counter in range and health at most the maximum; the player is the moved player, as `Tick.Move` describes, with only health and the counter changed afterwards, and the fall record tracks it; exactly the records with no due record at their spot remain; the game ends exactly when health reaches zero; daylight clears the mobs; the view window is present |

## Left out

- Rendering, textures, the lighting tint and the sun and moon are canvas output only.
- The DOM glue is left out:
  - the inventory display, the crafting menu markup and messages;
  - the key and click listener wiring, beyond the logic they run;
  - the `t` key that opens a crafting menu.
- Saving and loading through local storage, and the screen changes in `startGame`, `exitToMenu` and `resetGame`, are left out. This includes the initial player placement and the first three animal spawns.
- `Math.sin` in `hash2D`, in the terrain wave and in `getLightingFactor` is floating-point trigonometry. The hash and the wave are parameters, and the lighting factor is an input.
- `Math.random` and `Date.now()` are parameters, not sources. One frame uses a single `now` for both the animal spawn and regeneration.
- Floating-point rounding: positions and speeds are exact reals.
- Inventory counts and health are unbounded integers. JavaScript's 2^53 limit is never reached in play.
- Interaction.Click takes the click point in world coordinates. The handler adds `camera.x` and `camera.y` to the screen point first (game.js:524-525), and that conversion is left to the caller. Apart from that, `camera.y` (set at game.js:840) only offsets drawing and is not modelled. `camera.x` also chooses the generated window, so it is modelled.
- Interaction.Click: a click on a crafting table also pauses the game while the table's menu is open (game.js:263, reached from game.js:554). The model returns `OpenedTable` and leaves the pause to the caller, together with the menu itself.
- Interaction.ClickCellAsWritten: writes outside a column's 100 rows are dropped, here and everywhere else: the placed block, the "air" of a break and a tree's trunk above row 0. The source stores them as stray properties of the column array. Reads of valid rows and `getGroundLevel` never see them, but a later read of that same out-of-range cell does:
  - After an out-of-range "break", a second click on the same cell reads "air" in the source and places the selected block, spending one. The model, having dropped the write, breaks again and credits "undefined" again.
  - `resolveCollisions` and `checkIfOnGround` treat such a stray "air" cell as air. Collision.Solid reads every out-of-range row as undefined, hence solid.
  - The model therefore describes only the first click on an out-of-range cell faithfully.
- Collision.Settle: does not state that the loop converges, only its bound of ten passes, its stopping rule and the passes it ran. Convergence depends on floating-point behaviour the model does not have. The pass is a parameter; the game's is `Collision.Resolver`, which `SettleResolving` uses.
- Fauna.MoveAnimal: does not state non-penetration. The animal push runs without an overlap check, and the ground snap overwrites its vertical part. The push is stated through `Fauna.AnimalPush`, the same scan the source runs, with the still-square case proved separately.
- Interaction.RegrowTrees: what a column becomes is stated only when all of its records name the same row, which is the ground row a felled tree stood on. A column with due records at several rows, which needs the ground to move between two fellings, is covered only by the frame and length clauses.
- Terrain.Mine: the exact ore of a row is composed across the passes only from row 70 down (`Terrain.DeepOres`). Above row 70 the coal, iron and gold passes overlap, so each pass is stated exactly on its own (`Terrain.CoalPass`, `Terrain.OrePass`), and `Terrain.Mine` states the band and origin rule.
- Tick.Update requires every regrowth record to name a present column. `regrowTree` indexes the column unguarded and would throw otherwise. Every modelled operation keeps that invariant, `Interaction.Anchored`.

## Findings

| source | as written | input that shows it | evidently intended | confidence | as-written member | corrected member |
|---|---|---|---|---|---|---|
| game.js:551-585 | A row outside the column reads as `undefined`. That passes the table and air tests, needs only a hand, and "breaks" when in reach: the column is marked modified and the inventory key "undefined" gains one. | Player at x = 0, y = 0, standing on a block placed at row 2 of column 0, bare hand, clicking world point (5, -5), which is row -1. | Clicking outside the column's rows does nothing. | not executed; high | Interaction.AsWrittenBreaksOutsideColumn | Interaction.ClickCell |
| game.js:578-582 | The regrowth record reads the ground level before the broken block becomes air. The first non-air row is then the tree itself, never grass or snow, so felling a standing tree never schedules a regrowth. | A forest column with grass at row 20, wood at rows 19 and 18 and leaves at row 17. Breaking row 17, then 18, then 19 in reach records nothing. | Felling the last block above the grass records the grass cell, and the tree grows back 60 s later. | not executed; medium | Interaction.AsWrittenSkipsStandingTree | Interaction.CorrectedRecordsFelledTree |

=== FILE: blocks.dfy ===
/** Block kinds, tools and inventory items, and the lookup tables that decide
    which tool breaks a block and what breaking it yields (game.js:167-225). */
module Blocks {

  datatype Option<+T> = None | Some(value: T)

  /** Every kind of cell a world column can hold. */
  datatype Block =
    | Air | Grass | Dirt | Stone | Rock | Sand | Sandstone | Snow | Ice
    | Wood | SpruceWood | Leaves | SpruceLeaves
    | CoalOre | IronOre | GoldOre | DiamondOre | MossyStone
    | Cobblestone | Flower | Brick | Fence | Glass | CraftingTable

  /** The tools a player can hold; `Hand` is always available. */
  datatype Tool = Hand | WoodenPickaxe | StonePickaxe | IronPickaxe | DiamondPickaxe

  /** Inventory keys. The game keys its inventory by name, so a block and the
      item of the same name share one key, written `Of(b)` here. `Unnamed` is
      the key a missing block name turns into ("undefined"). */
  datatype Item =
    | Of(block: Block)
    | Coal | IronIngot | GoldIngot | Diamond | Meat
    | ToolItem(tool: Tool)
    | Unnamed

  /** Rank of a tool; a block breaks only with a tool of at least its required
      rank. The hand ranks lowest and the diamond pickaxe highest. */
  function Tier(t: Tool): (r: nat)
    ensures r <= 4
    ensures r == 0 <==> t == Hand
    ensures r == 4 <==> t == DiamondPickaxe
  {
    match t
    case Hand => 0
    case WoodenPickaxe => 1
    case StonePickaxe => 2
    case IronPickaxe => 3
    case DiamondPickaxe => 4
  }

  /** The tool a block demands; blocks missing from the table need only a hand. */
  function RequiredTool(b: Block): (t: Tool)
    ensures t != Hand <==> b in {Stone, Sandstone, Ice, CoalOre, IronOre, GoldOre, DiamondOre}
    ensures Tier(t) <= Tier(IronPickaxe)
    ensures b in {GoldOre, DiamondOre} <==> Tier(t) == Tier(IronPickaxe)
    ensures t == WoodenPickaxe <==> b in {Stone, Sandstone, Ice}
    ensures t == StonePickaxe <==> b in {CoalOre, IronOre}
    ensures t == IronPickaxe <==> b in {GoldOre, DiamondOre}
  {
    match b
    case Stone => WoodenPickaxe
    case CoalOre => StonePickaxe
    case IronOre => StonePickaxe
    case GoldOre => IronPickaxe
    case DiamondOre => IronPickaxe
    case Sandstone => WoodenPickaxe
    case Ice => WoodenPickaxe
    case _ => Hand
  }

  /** True when `t` is good enough to break `b`. */
  predicate Breaks(t: Tool, b: Block)
  {
    Tier(t) >= Tier(RequiredTool(b))
  }

  /** The tools rank hand, wooden, stone, iron, diamond from lowest to
      highest, so each pickaxe breaks what the one below breaks and more:
      the hand nothing hard, wood also stone, sandstone and ice, stone also
      coal and iron ore, iron everything. */
  lemma TierLadder(b: Block)
    ensures Tier(Hand) < Tier(WoodenPickaxe) < Tier(StonePickaxe) < Tier(IronPickaxe) < Tier(DiamondPickaxe)
    ensures Breaks(Hand, b) <==> b !in {Stone, Sandstone, Ice, CoalOre, IronOre, GoldOre, DiamondOre}
    ensures Breaks(WoodenPickaxe, b) <==> b !in {CoalOre, IronOre, GoldOre, DiamondOre}
    ensures Breaks(StonePickaxe, b) <==> b !in {GoldOre, DiamondOre}
    ensures Breaks(IronPickaxe, b)
  {
  }

  /** Ranks tell tools apart, and a higher-ranked tool breaks everything a
      lower-ranked one does. */
  lemma BreaksMonotone(t: Tool, u: Tool, b: Block)
    ensures Tier(t) == Tier(u) <==> t == u
    ensures Tier(t) <= Tier(u) && Breaks(t, b) ==> Breaks(u, b)
    ensures Breaks(DiamondPickaxe, b)
  {
  }

  /** What breaking a block adds to the inventory; a block missing from the
      drop table drops itself. */
  function DropFor(b: Block): (i: Item)
    ensures i.Of? ==> i.block == b || (b == Stone && i.block == Cobblestone)
    ensures !i.Of? <==> b in {CoalOre, IronOre, GoldOre, DiamondOre}
    ensures i != Unnamed && i != Meat && !i.ToolItem?
    ensures b == Stone ==> i == Of(Cobblestone)
    ensures i == Coal <==> b == CoalOre
    ensures i == IronIngot <==> b == IronOre
    ensures i == GoldIngot <==> b == GoldOre
    ensures i == Diamond <==> b == DiamondOre
  {
    match b
    case Stone => Of(Cobblestone)
    case CoalOre => Coal
    case IronOre => IronIngot
    case GoldOre => GoldIngot
    case DiamondOre => Diamond
    case _ => Of(b)
  }

  /** The blocks a player may select for placing. None is air, and each
      breaks back into itself, except stone, which yields cobblestone. */
  predicate Placeable(b: Block)
    ensures Placeable(b) ==> b != Air && (DropFor(b) == Of(b) || (b == Stone && DropFor(b) == Of(Cobblestone)))
  {
    b in {Grass, Dirt, Stone, Wood, SpruceWood, Leaves, SpruceLeaves, Cobblestone, Flower,
          Brick, Glass, Fence, MossyStone, CraftingTable, Sand, Sandstone, Snow, Ice}
  }

  /** Trunks and canopies: breaking one of these may schedule a regrowth. */
  predicate IsTreePart(b: Block)
  {
    b in {Wood, SpruceWood, Leaves, SpruceLeaves}
  }

  /** The four ores, each of which drops an item rather than itself. */
  predicate IsOre(b: Block)
  {
    b in {CoalOre, IronOre, GoldOre, DiamondOre}
  }
}

=== FILE: bodies.dfy ===
/** The moving bodies of the game (game.js:2-5, 147-158, 438-489) and the
    axis-aligned boxes they occupy. Positions are in pixels, one block being
    `BlockSize` pixels wide; row numbers grow downwards. */
module Bodies {
  import opened World

  const PlayerWidth: real := 20.0
  const PlayerHeight: real := 40.0
  /** `Math.round(BLOCK_SIZE * 1.2)`: the square footprint of animals and mobs. */
  const AnimalSize: real := 24.0

  datatype Player = Player(x: real, y: real, vx: real, vy: real, onGround: bool,
                           health: int, maxHealth: int, invuln: int)

  /** A hostile mob; it hurts the player by `damage` on contact. */
  datatype Mob = Mob(x: real, y: real, vx: real, damage: int)

  datatype Species = Cow | Pig | Chicken | PolarBear

  datatype Animal = Animal(species: Species, x: real, y: real, vx: real)

  /** An axis-aligned rectangle, `top` above `bottom`. */
  datatype Box = Box(left: real, right: real, top: real, bottom: real)

  function PlayerBox(p: Player): Box
  {
    Box(p.x, p.x + PlayerWidth, p.y, p.y + PlayerHeight)
  }

  function SquareBox(x: real, y: real): Box
  {
    Box(x, x + AnimalSize, y, y + AnimalSize)
  }

  /** The rectangle of grid cell (col, row). */
  function CellBox(col: int, row: int): Box
  {
    Box(col as real * BlockSize, col as real * BlockSize + BlockSize,
        row as real * BlockSize, row as real * BlockSize + BlockSize)
  }

  /** Interiors intersect: the boxes overlap by a positive amount on both axes. */
  predicate Overlaps(a: Box, b: Box)
  {
    a.right > b.left && a.left < b.right && a.bottom > b.top && a.top < b.bottom
  }

  /** Touching without overlapping: the closed boxes meet, the open ones do not. */
  predicate Touches(a: Box, b: Box)
  {
    && !Overlaps(a, b)
    && a.right >= b.left && a.left <= b.right && a.bottom >= b.top && a.top <= b.bottom
  }

  function Abs(v: real): real
  {
    if v < 0.0 then -v else v
  }

  function Min(a: real, b: real): real
  {
    if a <= b then a else b
  }
}

=== FILE: clock.dfy ===
/** The day-night clock (game.js:590-594): the fraction of the current day
    that has elapsed since the game started. */
module Clock {

  /** Length of one day-night cycle, in milliseconds. */
  const DayDuration: int := 300000

  /** JavaScript's `elapsed % dayDuration`: the remainder takes the sign of
      the dividend, unlike Dafny's Euclidean `%`. */
  function DayRem(a: int): (r: int)
    ensures a >= 0 ==> 0 <= r < DayDuration
    ensures a < 0 ==> -DayDuration < r <= 0
    ensures (a - r) % DayDuration == 0
  {
    if a >= 0 then a % DayDuration else -((-a) % DayDuration)
  }

  /** `getTimeOfDay`: `elapsed % dayDuration / dayDuration`. For a clock at or
      after the start the result is the unique fraction in [0, 1) whose
      multiple of the day length differs from the elapsed time by whole days. */
  function TimeOfDay(now: int, start: int): (t: real)
    ensures now - start >= 0 ==> 0.0 <= t < 1.0
    ensures now - start < 0 ==> -1.0 < t <= 0.0
    ensures var ms := (t * DayDuration as real).Floor;
      && ms as real == t * DayDuration as real
      && (now - start - ms) % DayDuration == 0
  {
    var ms := DayRem(now - start);
    assert (ms as real / DayDuration as real) * DayDuration as real == ms as real;
    ms as real / DayDuration as real
  }

  /** The clock repeats every day. */
  lemma {:induction false} TimeOfDayPeriodic(now: int, start: int, days: nat)
    requires now - start >= 0
    ensures TimeOfDay(now + days * DayDuration, start) == TimeOfDay(now, start)
  {
    DayRemPeriodic(now - start, days);
    assert now + days * DayDuration - start == now - start + days * DayDuration;
  }

  /** Adding whole days to a non-negative elapsed time keeps its remainder. */
  lemma {:induction false} DayRemPeriodic(e: int, days: nat)
    requires e >= 0
    ensures DayRem(e + days * DayDuration) == DayRem(e)
  {
    if days > 0 {
      DayRemPeriodic(e, days - 1);
      var e' := e + (days - 1) * DayDuration;
      assert e + days * DayDuration == e' + DayDuration;
      assert (e' + DayDuration) % DayDuration == e' % DayDuration;
    }
  }

  /** Before the start the clock runs backwards from zero: the day it shows is
      the negative of the one it shows as far after the start, as JavaScript's
      truncating remainder makes it. */
  lemma TimeOfDayBeforeStart(start: int, ms: int)
    requires ms > 0
    ensures TimeOfDay(start - ms, start) == -TimeOfDay(start + ms, start)
  {
    assert DayRem(-ms) == -DayRem(ms);
  }
}

=== FILE: collision.dfy ===
/** The player's collision handling (game.js:333-402, 812-824): per-cell
    push-out along the axis of smaller overlap, the bounded settle loop, the
    snap onto nearby ground and the separate one-pixel ground probe. */
module Collision {
  import opened Blocks
  import opened Terrain
  import opened World
  import opened Bodies

  /** The grid index of a pixel coordinate. */
  function GridOf(v: real): int
  {
    (v / BlockSize).Floor
  }

  /** A coordinate inside cell `k`'s span has grid index `k`. */
  lemma GridOfWithin(v: real, k: int)
    requires k as real * BlockSize <= v < k as real * BlockSize + BlockSize
    ensures GridOf(v) == k
  {
    assert k as real <= v / BlockSize < k as real + 1.0;
  }

  /** A cell blocks movement unless it is air; a row outside the column reads
      as undefined, which is not air, so it blocks too. */
  predicate Solid(w: World, col: int, row: int)
    requires col in w
  {
    CellAt(w[col], row) != Some(Air)
  }

  /** How far a box reaches into column `col`, from whichever side is nearer. */
  function OverlapX(b: Box, col: int): real
  {
    Min(b.right - col as real * BlockSize, col as real * BlockSize + BlockSize - b.left)
  }

  function OverlapY(b: Box, row: int): real
  {
    Min(b.bottom - row as real * BlockSize, row as real * BlockSize + BlockSize - b.top)
  }

  /** Resolving one overlapping cell: the player moves along the axis of the
      smaller overlap, by exactly that overlap, away from the cell's centre;
      the velocity on that axis becomes zero, and only an upward push grounds
      the player. Afterwards the player touches the cell but no longer
      overlaps it. */
  function PushOut(p: Player, col: int, row: int): (q: Player)
    requires Overlaps(PlayerBox(p), CellBox(col, row))
    ensures !Overlaps(PlayerBox(q), CellBox(col, row))
    ensures Touches(PlayerBox(q), CellBox(col, row))
    ensures var ox, oy := OverlapX(PlayerBox(p), col), OverlapY(PlayerBox(p), row);
      if ox < oy then
        && q == p.(x := q.x, vx := 0.0)
        && Abs(q.x - p.x) == ox
        && (q.x < p.x <==> p.x + PlayerWidth / 2.0 < col as real * BlockSize + BlockSize / 2.0)
      else
        && q == p.(y := q.y, vy := 0.0, onGround := p.onGround || q.y < p.y)
        && Abs(q.y - p.y) == oy
        && (q.y < p.y <==> p.y + PlayerHeight / 2.0 < row as real * BlockSize + BlockSize / 2.0)
  {
    var box := PlayerBox(p);
    var cellLeft, cellTop := col as real * BlockSize, row as real * BlockSize;
    var ox, oy := OverlapX(box, col), OverlapY(box, row);
    if ox < oy then
      var x := if p.x + PlayerWidth / 2.0 < cellLeft + BlockSize / 2.0 then p.x - ox else p.x + ox;
      p.(x := x, vx := 0.0)
    else if p.y + PlayerHeight / 2.0 < cellTop + BlockSize / 2.0 then
      p.(y := cellTop - PlayerHeight, vy := 0.0, onGround := true)
    else
      p.(y := cellTop + BlockSize, vy := 0.0)
  }

  /** What collision resolution may change about the player: position, a
      velocity component dropping to zero, and the grounded flag turning on. */
  predicate Kept(p: Player, q: Player)
  {
    && q.health == p.health && q.maxHealth == p.maxHealth && q.invuln == p.invuln
    && (q.vx == p.vx || q.vx == 0.0)
    && (q.vy == p.vy || q.vy == 0.0)
    && (p.onGround ==> q.onGround)
  }

  /** The cells of one column, top to bottom, each checked against the
      player's current (already corrected) box. */
  function ScanRows(w: World, p: Player, col: int, row: int, lastRow: int): (q: Player)
    requires col in w
    ensures Kept(p, q)
    ensures (forall r :: row <= r <= lastRow ==> !(Solid(w, col, r) && Overlaps(PlayerBox(p), CellBox(col, r)))) ==> q == p
    decreases lastRow - row + 1
  {
    if row > lastRow then p
    else
      var next := if Solid(w, col, row) && Overlaps(PlayerBox(p), CellBox(col, row)) then PushOut(p, col, row) else p;
      ScanRows(w, next, col, row + 1, lastRow)
  }

  function ScanCols(w: World, p: Player, col: int, lastCol: int, firstRow: int, lastRow: int): (q: Player)
    requires forall c :: col <= c <= lastCol ==> c in w
    ensures Kept(p, q)
    ensures (forall c, r :: col <= c <= lastCol && firstRow <= r <= lastRow && c in w ==>
               !(Solid(w, c, r) && Overlaps(PlayerBox(p), CellBox(c, r)))) ==> q == p
    decreases lastCol - col + 1
  {
    if col > lastCol then p
    else ScanCols(w, ScanRows(w, p, col, firstRow, lastRow), col + 1, lastCol, firstRow, lastRow)
  }

  /** `resolveCollisions`: one pass over the cells under the player's box,
      generating their columns first. The world only gains columns; when no
      solid cell overlaps the box the player is left exactly as it was. */
  function ResolveCollisions(gen: Generator, w: World, p: Player): (res: (World, Player))
    ensures forall c :: c in w ==> c in res.0 && res.0[c] == w[c]
    ensures forall c :: c in res.0 ==> c in w || GridOf(p.x) <= c <= GridOf(p.x + PlayerWidth - 1.0)
    ensures Valid(w) ==> Valid(res.0)
    ensures Kept(p, res.1)
    ensures var b := PlayerBox(p);
      (forall c, r :: GridOf(b.left) <= c <= GridOf(b.right - 1.0) && GridOf(b.top) <= r <= GridOf(b.bottom - 1.0) && c in res.0 ==>
         !(Solid(res.0, c, r) && Overlaps(b, CellBox(c, r)))) ==> res.1 == p
  {
    var b := PlayerBox(p);
    var lo, hi := GridOf(b.left), GridOf(b.right - 1.0);
    var w' := GenerateSpan(gen, w, lo, hi);
    (w', ScanCols(w', p, lo, hi, GridOf(b.top), GridOf(b.bottom - 1.0)))
  }

  /** A pass over a player whose box spans present columns `lo..hi` and rows
      `top..bottom` generates nothing and scans exactly those cells. */
  lemma ResolveWithin(gen: Generator, w: World, p: Player, lo: int, hi: int, top: int, bottom: int)
    requires GridOf(p.x) == lo && GridOf(p.x + PlayerWidth - 1.0) == hi
    requires GridOf(p.y) == top && GridOf(p.y + PlayerHeight - 1.0) == bottom
    requires forall c :: lo <= c <= hi ==> c in w
    ensures ResolveCollisions(gen, w, p) == (w, ScanCols(w, p, lo, hi, top, bottom))
  {
  }

  /** Landing: a player standing in a single present column whose feet sank
      at least 1 and less than 20 pixels into a non-air cell, with air in the
      two cells above it, is lifted so that its feet rest on the cell's top,
      grounded, with zero vertical speed and its horizontal position kept. */
  lemma Landing(gen: Generator, w: World, p: Player, col: int, row: int, depth: real)
    requires col in w && p.x == col as real * BlockSize
    requires 1.0 <= depth < BlockSize && p.y + PlayerHeight == row as real * BlockSize + depth
    requires !Solid(w, col, row - 2) && !Solid(w, col, row - 1) && Solid(w, col, row)
    ensures var q := ResolveCollisions(gen, w, p).1;
      q.y + PlayerHeight == row as real * BlockSize && q.x == p.x && q.vy == 0.0 && q.onGround
  {
    LandingGrid(p, col, row, depth);
    ResolveWithin(gen, w, p, col, col, row - 2, row);
    LandingScan(w, p, col, row, depth);
  }

  /** The cells behind `Landing`: one column and the three rows above the
      feet's cell, that cell included. */
  lemma LandingGrid(p: Player, col: int, row: int, depth: real)
    requires p.x == col as real * BlockSize
    requires 1.0 <= depth < BlockSize && p.y + PlayerHeight == row as real * BlockSize + depth
    ensures GridOf(p.x) == col && GridOf(p.x + PlayerWidth - 1.0) == col
    ensures GridOf(p.y) == row - 2 && GridOf(p.y + PlayerHeight - 1.0) == row
  {
    GridOfWithin(p.x, col);
    GridOfWithin(p.x + PlayerWidth - 1.0, col);
    assert (row - 2) as real * BlockSize == row as real * BlockSize - PlayerHeight;
    GridOfWithin(p.y, row - 2);
    GridOfWithin(p.y + PlayerHeight - 1.0, row);
  }

  /** The scan behind `Landing`, over the three rows the player covers. */
  lemma LandingScan(w: World, p: Player, col: int, row: int, depth: real)
    requires col in w && p.x == col as real * BlockSize
    requires 1.0 <= depth < BlockSize && p.y + PlayerHeight == row as real * BlockSize + depth
    requires !Solid(w, col, row - 2) && !Solid(w, col, row - 1) && Solid(w, col, row)
    ensures ScanCols(w, p, col, col, row - 2, row) == p.(y := row as real * BlockSize - PlayerHeight, vy := 0.0, onGround := true)
  {
    var q := PushOut(p, col, row);
    assert q == p.(y := row as real * BlockSize - PlayerHeight, vy := 0.0, onGround := true);
    assert ScanRows(w, q, col, row + 1, row) == q;
    assert ScanRows(w, p, col, row, row) == q;
    assert ScanRows(w, p, col, row - 1, row) == q;
    assert ScanRows(w, p, col, row - 2, row) == q;
    assert ScanCols(w, q, col + 1, col, row - 2, row) == q;
  }


  /** Walking into a wall: a player whose top is on a grid line, standing in
      air in column `col - 1` and reaching at least 1 and less than 20 pixels
      into a non-air cell of column `col` at its top row, is pushed back so
      that its right edge touches the wall, with zero horizontal speed and
      its height kept. */
  lemma WallStop(gen: Generator, w: World, p: Player, col: int, row: int, depth: real)
    requires col - 1 in w && col in w
    requires 1.0 <= depth < BlockSize && p.x + PlayerWidth == col as real * BlockSize + depth
    requires p.y == row as real * BlockSize
    requires !Solid(w, col - 1, row) && !Solid(w, col - 1, row + 1) && Solid(w, col, row)
    ensures var q := ResolveCollisions(gen, w, p).1;
      q.x + PlayerWidth == col as real * BlockSize && q.y == p.y && q.vx == 0.0 && q.vy == p.vy
  {
    WallGrid(p, col, row, depth);
    ResolveWithin(gen, w, p, col - 1, col, row, row + 1);
    WallScan(w, p, col, row, depth);
  }

  /** The cells behind `WallStop`: two columns and two rows. */
  lemma WallGrid(p: Player, col: int, row: int, depth: real)
    requires 1.0 <= depth < BlockSize && p.x + PlayerWidth == col as real * BlockSize + depth
    requires p.y == row as real * BlockSize
    ensures GridOf(p.x) == col - 1 && GridOf(p.x + PlayerWidth - 1.0) == col
    ensures GridOf(p.y) == row && GridOf(p.y + PlayerHeight - 1.0) == row + 1
  {
    assert (col - 1) as real * BlockSize == col as real * BlockSize - PlayerWidth;
    GridOfWithin(p.x, col - 1);
    GridOfWithin(p.x + PlayerWidth - 1.0, col);
    GridOfWithin(p.y, row);
    assert (row + 1) as real * BlockSize == row as real * BlockSize + BlockSize;
    GridOfWithin(p.y + PlayerHeight - 1.0, row + 1);
  }

  /** The scan behind `WallStop`, over the two columns and two rows the
      player covers. */
  lemma WallScan(w: World, p: Player, col: int, row: int, depth: real)
    requires col - 1 in w && col in w
    requires 1.0 <= depth < BlockSize && p.x + PlayerWidth == col as real * BlockSize + depth
    requires p.y == row as real * BlockSize
    requires !Solid(w, col - 1, row) && !Solid(w, col - 1, row + 1) && Solid(w, col, row)
    ensures ScanCols(w, p, col - 1, col, row, row + 1) == p.(x := col as real * BlockSize - PlayerWidth, vx := 0.0)
  {
    assert ScanRows(w, p, col - 1, row + 1, row + 1) == p;
    assert ScanRows(w, p, col - 1, row, row + 1) == p;
    var q := PushOut(p, col, row);
    assert q == p.(x := col as real * BlockSize - PlayerWidth, vx := 0.0);
    assert ScanRows(w, q, col, row + 2, row + 1) == q;
    assert ScanRows(w, q, col, row + 1, row + 1) == q;
    assert ScanRows(w, p, col, row, row + 1) == q;
    assert ScanCols(w, q, col + 1, col, row, row + 1) == q;
  }


  /** A collision pass over a world and a player; `Resolver` is the game's. */
  type Pass = ((World, Player)) -> (World, Player)

  /** What a collision pass keeps: the player's health, its velocities or
      zero, its footing, every present column and the world's well-formedness. */
  ghost predicate PassKeeps(s: (World, Player), t: (World, Player))
  {
    && Kept(s.1, t.1)
    && (forall c :: c in s.0 ==> c in t.0 && t.0[c] == s.0[c])
    && (Valid(s.0) ==> Valid(t.0))
  }

  /** `resolveCollisions` over the generator, as a pass. */
  function Resolver(gen: Generator): Pass
  {
    (s: (World, Player)) => ResolveCollisions(gen, s.0, s.1)
  }

  /** `resolveCollisions` is a collision pass that keeps what a pass must. */
  lemma ResolverKeeps(gen: Generator)
    ensures forall s :: PassKeeps(s, Resolver(gen)(s))
  {
  }

  /** The world and player after `n` runs of a pass. */
  function Passes(step: Pass, w: World, p: Player, n: nat): (World, Player)
  {
    if n == 0 then (w, p) else step(Passes(step, w, p, n - 1))
  }

  /** Any number of passes keeps what a single pass keeps. */
  lemma {:induction false} PassesKeep(step: Pass, w: World, p: Player, n: nat)
    requires forall s :: PassKeeps(s, step(s))
    ensures PassKeeps((w, p), Passes(step, w, p, n))
  {
    if n > 0 {
      PassesKeep(step, w, p, n - 1);
    }
  }

  /** The vertical movement of pass `n` (counting from one). */
  function Shift(step: Pass, w: World, p: Player, n: nat): real
    requires n >= 1
  {
    Passes(step, w, p, n).1.y - Passes(step, w, p, n - 1).1.y
  }

  /** The settle loop of `update`: run the pass, and repeat while the last
      pass moved the player vertically by more than 0.001, at most ten passes
      in all. The result is that of the passes run; `shift` is the vertical
      movement of the last one, every earlier pass moved by more than 0.001,
      and the loop stops early only on a pass that moved by at most that.
      The game passes `Resolver(gen)`. */
  method Settle(step: Pass, w: World, p: Player) returns (w': World, q: Player, passes: nat, shift: real)
    ensures 1 <= passes <= 10
    ensures (w', q) == Passes(step, w, p, passes)
    ensures shift == Shift(step, w, p, passes)
    ensures forall n :: 1 <= n < passes ==> Abs(Shift(step, w, p, n)) > 0.001
    ensures passes < 10 ==> Abs(shift) <= 0.001
    ensures (forall s :: PassKeeps(s, step(s))) ==> PassKeeps((w, p), (w', q))
  {
    var prev, cur := (w, p), step((w, p));
    passes, shift := 1, cur.1.y - p.y;
    while Abs(shift) > 0.001 && passes < 10
      invariant 1 <= passes <= 10
      invariant prev == Passes(step, w, p, passes - 1) && cur == Passes(step, w, p, passes)
      invariant shift == Shift(step, w, p, passes)
      invariant forall n :: 1 <= n < passes ==> Abs(Shift(step, w, p, n)) > 0.001
      decreases 10 - passes
    {
      prev, cur := cur, step(cur);
      passes, shift := passes + 1, cur.1.y - prev.1.y;
    }
    w', q := cur.0, cur.1;
    if forall s :: PassKeeps(s, step(s)) {
      PassesKeep(step, w, p, passes);
    }
  }

  /** The settle loop with the game's pass, `resolveCollisions`: the
      result is that of between one and ten passes, and it keeps what every
      pass keeps. */
  method SettleResolving(gen: Generator, w: World, p: Player) returns (w': World, q: Player)
    ensures exists n :: 1 <= n <= 10 && (w', q) == Passes(Resolver(gen), w, p, n)
    ensures PassKeeps((w, p), (w', q))
  {
    var passes, shift;
    w', q, passes, shift := Settle(Resolver(gen), w, p);
    assert PassKeeps((w, p), (w', q)) by { ResolverKeeps(gen); }
  }

  /** The bottom edge `v` lies exactly on a grid line. */
  predicate OnGridLine(v: real)
  {
    (v / BlockSize).Floor as real * BlockSize == v
  }

  /** A ground top at row `g` lies 0 to 5 pixels below the player's feet. */
  predicate InSnapRange(p: Player, g: int)
  {
    0.0 <= g as real * BlockSize - (p.y + PlayerHeight) < 5.0
  }

  /** One column of `snapToGround`: a ground top at row `g` that lies 0 to 5
      pixels below the feet pulls the player onto it, stopped and grounded;
      any other ground top leaves the player alone. A player already standing
      on a grid line is never moved. */
  function SnapOnto(p: Player, g: int): (q: Player)
    ensures InSnapRange(p, g) ==> q == p.(y := g as real * BlockSize - PlayerHeight, vy := 0.0, onGround := true)
    ensures !InSnapRange(p, g) ==> q == p
    ensures p.y <= q.y < p.y + 5.0
    ensures q != p ==> OnGridLine(q.y + PlayerHeight)
    ensures OnGridLine(p.y + PlayerHeight) ==> q.y == p.y
  {
    var cellTop := g as real * BlockSize;
    var gap := cellTop - (p.y + PlayerHeight);
    if 0.0 <= gap < 5.0 then
      assert OnGridLine(p.y + PlayerHeight) ==> gap == 0.0 by {
        if OnGridLine(p.y + PlayerHeight) {
          var k := ((p.y + PlayerHeight) / BlockSize).Floor;
          assert gap == (g - k) as real * BlockSize;
        }
      }
      p.(y := cellTop - PlayerHeight, vy := 0.0, onGround := true)
    else p
  }

  /** The snap loop over the footprint columns from `col` to `last`, all of
      them already generated. Each column is tested against the feet as the
      columns before it left them. The player ends stopped and grounded on a
      grid line exactly when some column's ground top lay 0 to 5 pixels below
      the original feet, and is untouched otherwise. */
  function SnapFrom(w: World, p: Player, col: int, last: int): (q: Player)
    requires forall c :: col <= c <= last ==> c in w
    ensures q.x == p.x && q.vx == p.vx && q.health == p.health && q.maxHealth == p.maxHealth && q.invuln == p.invuln
    ensures p.y <= q.y < p.y + 5.0
    ensures q == p || (q.vy == 0.0 && q.onGround && OnGridLine(q.y + PlayerHeight))
    ensures OnGridLine(p.y + PlayerHeight) ==> q.y == p.y
    decreases last - col + 1
  {
    if col > last then p
    else
      var p1 := SnapOnto(p, GroundLevel(w[col].cells));
      var q := SnapFrom(w, p1, col + 1, last);
      assert p1 != p ==> q.y == p1.y;
      q
  }

  /** The sweep snaps exactly when some column has its ground top 0 to 5
      pixels below the feet it starts with, and then ends grounded and at
      rest vertically with its feet on a grid line. */
  lemma {:induction false} SnapFromSnaps(w: World, p: Player, col: int, last: int)
    requires forall c :: col <= c <= last ==> c in w
    ensures (exists c :: col <= c <= last && InSnapRange(p, GroundLevel(w[c].cells))) ==>
      var q := SnapFrom(w, p, col, last); q.vy == 0.0 && q.onGround && OnGridLine(q.y + PlayerHeight)
    ensures (forall c :: col <= c <= last ==> !InSnapRange(p, GroundLevel(w[c].cells))) ==> SnapFrom(w, p, col, last) == p
    decreases last - col + 1
  {
    if col <= last {
      var p1 := SnapOnto(p, GroundLevel(w[col].cells));
      SnapFromSnaps(w, p1, col + 1, last);
    }
  }

  /** `snapToGround` over the one or two columns under the player, which it
      generates first. */
  method SnapToGround(gen: Generator, w: World, p: Player) returns (w': World, q: Player)
    ensures forall c :: c in w ==> c in w' && w'[c] == w[c]
    ensures Valid(w) ==> Valid(w')
    ensures forall c :: GridOf(p.x) <= c <= GridOf(p.x + PlayerWidth - 1.0) ==> c in w'
    ensures q.x == p.x && q.vx == p.vx && p.y <= q.y < p.y + 5.0
    ensures q == p || (q.vy == 0.0 && q.onGround && OnGridLine(q.y + PlayerHeight))
    ensures q.health == p.health && q.maxHealth == p.maxHealth && q.invuln == p.invuln
    ensures (exists c :: GridOf(p.x) <= c <= GridOf(p.x + PlayerWidth - 1.0) && c in w'
                        && InSnapRange(p, GroundLevel(w'[c].cells))) ==>
      q.vy == 0.0 && q.onGround && OnGridLine(q.y + PlayerHeight)
    ensures (forall c :: GridOf(p.x) <= c <= GridOf(p.x + PlayerWidth - 1.0) && c in w'
                        ==> !InSnapRange(p, GroundLevel(w'[c].cells))) ==> q == p
  {
    var lo, hi := GridOf(p.x), GridOf(p.x + PlayerWidth - 1.0);
    w' := GenerateSpan(gen, w, lo, hi);
    q := SnapFrom(w', p, lo, hi);
    SnapFromSnaps(w', p, lo, hi);
  }

  /** Column `c` is present and its cell in `row` is not air (or missing). */
  predicate Blocked(w: World, c: int, row: int)
  {
    c in w && CellAt(w[c], row) != Some(Air)
  }

  /** The probe loop of `checkIfOnGround`: generates each footprint column in
      turn and stops at the first whose cell in `row` is not air. */
  function ProbeFrom(gen: Generator, w: World, col: int, last: int, row: int): (res: (World, bool))
    ensures forall c :: c in w ==> c in res.0 && res.0[c] == w[c]
    ensures Valid(w) ==> Valid(res.0)
    ensures res.1 <==> exists c :: col <= c <= last && Blocked(res.0, c, row)
    ensures !res.1 ==> forall c :: col <= c <= last ==> c in res.0
    decreases last - col + 1
  {
    if col > last then (w, false)
    else
      var w1 := EnsureColumn(gen, w, col);
      if CellAt(w1[col], row) != Some(Air) then
        assert Blocked(w1, col, row);
        (w1, true)
      else
        var res := ProbeFrom(gen, w1, col + 1, last, row);
        assert col in res.0 && res.0[col] == w1[col];
        assert !Blocked(res.0, col, row);
        res
  }

  /** `checkIfOnGround`: the player is grounded exactly when some column under
      the footprint holds a non-air cell (or no cell at all) one pixel below
      the feet. */
  method CheckIfOnGround(gen: Generator, w: World, p: Player) returns (w': World, q: Player)
    ensures forall c :: c in w ==> c in w' && w'[c] == w[c]
    ensures Valid(w) ==> Valid(w')
    ensures q == p.(onGround := q.onGround)
    ensures q.onGround <==> exists c :: GridOf(p.x) <= c <= GridOf(p.x + PlayerWidth - 1.0)
                                        && c in w' && Blocked(w', c, GridOf(p.y + PlayerHeight + 1.0))
  {
    var res := ProbeFrom(gen, w, GridOf(p.x), GridOf(p.x + PlayerWidth - 1.0), GridOf(p.y + PlayerHeight + 1.0));
    w', q := res.0, p.(onGround := res.1);
  }
}

=== FILE: fauna.dfy ===
/** Animals and hostile mobs (game.js:404-507, 860-863): where they spawn,
    how they move, and the caps on their numbers. `Math.random` draws come in
    as explicit values; the lighting factor is a parameter. */
module Fauna {
  import opened Blocks
  import opened Terrain
  import opened World
  import opened Bodies
  import opened Collision

  const MaxMobs: nat := 5
  const MobDamage: int := 10
  const MaxAnimals: nat := 20
  /** Milliseconds that must pass between two animal spawn attempts. */
  const AnimalSpawnInterval: int := 30000

  /** The y at which a square body stands on the ground of column `col`. */
  function StandingY(w: World, col: int): real
    requires col in w
  {
    GroundLevel(w[col].cells) as real * BlockSize - AnimalSize
  }

  /** A body at the standing height has its bottom edge on the top of the
      column's first non-air cell: the row its feet rest on is the ground row,
      with only air above it. */
  lemma StandsOnGround(w: World, col: int)
    requires col in w
    ensures GridOf(StandingY(w, col) + AnimalSize) == GroundLevel(w[col].cells)
    ensures forall i :: 0 <= i < GridOf(StandingY(w, col) + AnimalSize) ==> w[col].cells[i] == Air
  {
    GridOfWithin(StandingY(w, col) + AnimalSize, GroundLevel(w[col].cells));
  }

  /** A column that a later step keeps keeps its standing height. */
  lemma StandingYKept(w: World, w': World, col: int)
    requires col in w && col in w' && w'[col] == w[col]
    ensures StandingY(w', col) == StandingY(w, col)
  {
  }

  /** A uniform draw of `Math.random`. */
  predicate Unit(r: real)
  {
    0.0 <= r < 1.0
  }

  // ----- Mobs -----

  /** The chase rule (game.js:500): the mob heads toward the player at its
      current speed, and a mob standing still starts at speed 0.5. */
  function ChaseVelocity(mobX: real, playerX: real, vx: real): (v: real)
    ensures v != 0.0
    ensures v > 0.0 <==> mobX < playerX
    ensures Abs(v) == if vx == 0.0 then 0.5 else Abs(vx)
  {
    if mobX < playerX then (if Abs(vx) != 0.0 then Abs(vx) else 0.5)
    else (if -Abs(vx) != 0.0 then -Abs(vx) else -0.5)
  }

  /** Chasing twice in a row changes nothing more than chasing once. */
  lemma ChaseVelocityIdempotent(mobX: real, playerX: real, vx: real)
    ensures var v := ChaseVelocity(mobX, playerX, vx);
      ChaseVelocity(mobX, playerX, v) == v
  {
  }

  /** A mob farther from the player than one step closes in. */
  lemma ChaseApproaches(mobX: real, playerX: real, vx: real)
    requires Abs(mobX - playerX) > Abs(ChaseVelocity(mobX, playerX, vx))
    ensures Abs(mobX + ChaseVelocity(mobX, playerX, vx) - playerX) < Abs(mobX - playerX)
  {
  }

  /** The draws of one mob spawn: its distance, its side, and its speed. */
  datatype MobDraws = MobDraws(distance: real, side: real, speed: real)

  /** Where a spawned mob appears and how fast it moves: 200 to 800 pixels to
      one side of the player, heading toward the player at 0.5 to 1.5. */
  function MobSpot(playerX: real, d: MobDraws): (spot: (real, real))
    ensures Unit(d.speed) ==> (spot.1 > 0.0 <==> spot.0 < playerX)
    ensures Unit(d.distance) ==> 200.0 <= Abs(spot.0 - playerX) < 800.0
    ensures Unit(d.speed) ==> 0.5 <= Abs(spot.1) < 1.5
  {
    var offset := (d.distance * 600.0 + 200.0) * (if d.side < 0.5 then -1.0 else 1.0);
    var x := playerX + offset;
    (x, (if playerX > x then 1.0 else -1.0) * (0.5 + d.speed))
  }

  /** `spawnMobs`: at night (lighting below 0.3) and below the cap, one mob
      appears 200 to 800 pixels to one side of the player, on the ground,
      heading toward the player at a speed between 0.5 and 1.5. */
  function SpawnMob(gen: Generator, w: World, p: Player, mobs: seq<Mob>, light: real, d: MobDraws): (res: (World, seq<Mob>))
    ensures forall c :: c in w ==> c in res.0 && res.0[c] == w[c]
    ensures Valid(w) ==> Valid(res.0)
    ensures light >= 0.3 || |mobs| >= MaxMobs ==> res == (w, mobs)
    ensures light < 0.3 && |mobs| < MaxMobs ==>
      && |res.1| == |mobs| + 1 && res.1[..|mobs|] == mobs
      && var m := res.1[|mobs|];
         && m.damage == MobDamage
         && GridOf(m.x) in res.0 && m.y == StandingY(res.0, GridOf(m.x))
         && (Unit(d.distance) ==> 200.0 <= Abs(m.x - p.x) < 800.0)
         && (Unit(d.speed) ==> 0.5 <= Abs(m.vx) < 1.5 && (m.vx > 0.0 <==> m.x < p.x))
  {
    if light < 0.3 && |mobs| < MaxMobs then
      var spot := MobSpot(p.x, d);
      var col := GridOf(spot.0);
      var w' := EnsureColumn(gen, w, col);
      (w', mobs + [Mob(spot.0, StandingY(w', col), spot.1, MobDamage)])
    else (w, mobs)
  }

  /** One mob's move: chase, step, and stand on the ground of its new column. */
  method MoveMob(gen: Generator, w: World, p: Player, m: Mob) returns (w': World, moved: Mob)
    ensures forall c :: c in w ==> c in w' && w'[c] == w[c]
    ensures Valid(w) ==> Valid(w')
    ensures moved.vx == ChaseVelocity(m.x, p.x, m.vx) && moved.x == m.x + moved.vx
    ensures moved.damage == m.damage
    ensures GridOf(moved.x) in w' && moved.y == StandingY(w', GridOf(moved.x))
  {
    var vx := ChaseVelocity(m.x, p.x, m.vx);
    var x := m.x + vx;
    w' := EnsureColumn(gen, w, GridOf(x));
    moved := Mob(x, StandingY(w', GridOf(x)), vx, m.damage);
  }

  /** The movement loop of `updateMobs`, in list order. */
  method MoveMobs(gen: Generator, w: World, p: Player, mobs: seq<Mob>) returns (w': World, moved: seq<Mob>)
    ensures forall c :: c in w ==> c in w' && w'[c] == w[c]
    ensures Valid(w) ==> Valid(w')
    ensures |moved| == |mobs|
    ensures forall k :: 0 <= k < |mobs| ==>
      && moved[k].vx == ChaseVelocity(mobs[k].x, p.x, mobs[k].vx)
      && moved[k].x == mobs[k].x + moved[k].vx
      && moved[k].damage == mobs[k].damage
      && GridOf(moved[k].x) in w' && moved[k].y == StandingY(w', GridOf(moved[k].x))
  {
    w', moved := w, [];
    var i := 0;
    while i < |mobs|
      invariant 0 <= i <= |mobs| && |moved| == i
      invariant forall c :: c in w ==> c in w' && w'[c] == w[c]
      invariant Valid(w) ==> Valid(w')
      invariant forall k :: 0 <= k < i ==>
        && moved[k].vx == ChaseVelocity(mobs[k].x, p.x, mobs[k].vx)
        && moved[k].x == mobs[k].x + moved[k].vx
        && moved[k].damage == mobs[k].damage
        && GridOf(moved[k].x) in w' && moved[k].y == StandingY(w', GridOf(moved[k].x))
    {
      var next, m := MoveMob(gen, w', p, mobs[i]);
      forall k | 0 <= k < i
        ensures GridOf(moved[k].x) in next && StandingY(next, GridOf(moved[k].x)) == StandingY(w', GridOf(moved[k].x))
      {
        StandingYKept(w', next, GridOf(moved[k].x));
      }
      w', moved := next, moved + [m];
      i := i + 1;
    }
  }

  /** `updateMobs`: daylight (lighting at least 0.5) clears every mob; otherwise
      a roll below 0.01 tries a spawn, and then every mob chases the player.
      The cap of five mobs is never exceeded by spawning. */
  method UpdateMobs(gen: Generator, w: World, p: Player, mobs: seq<Mob>, light: real, spawnRoll: real, d: MobDraws)
    returns (w': World, mobs': seq<Mob>)
    ensures forall c :: c in w ==> c in w' && w'[c] == w[c]
    ensures Valid(w) ==> Valid(w')
    ensures light >= 0.5 ==> w' == w && mobs' == []
    ensures light < 0.5 ==> |mobs| <= |mobs'| <= |mobs| + 1
    ensures |mobs'| == |mobs| + 1 <==> light < 0.3 && spawnRoll < 0.01 && |mobs| < MaxMobs
    ensures light < 0.5 ==> forall k :: 0 <= k < |mobs| ==>
      && mobs'[k].vx == ChaseVelocity(mobs[k].x, p.x, mobs[k].vx)
      && mobs'[k].x == mobs[k].x + mobs'[k].vx
    ensures |mobs| <= MaxMobs ==> |mobs'| <= MaxMobs
    ensures forall k :: 0 <= k < |mobs'| ==>
      && GridOf(mobs'[k].x) in w' && mobs'[k].y == StandingY(w', GridOf(mobs'[k].x))
      && mobs'[k].vx != 0.0
      && mobs'[k].damage == (if k < |mobs| then mobs[k].damage else MobDamage)
  {
    if light >= 0.5 {
      return w, [];
    }
    var spawned := if spawnRoll < 0.01 then SpawnMob(gen, w, p, mobs, light, d) else (w, mobs);
    assert forall k :: 0 <= k < |mobs| ==> spawned.1[k] == mobs[k];
    w', mobs' := MoveMobs(gen, spawned.0, p, spawned.1);
  }

  // ----- Animals -----

  /** The species that live in a biome. */
  function Kinds(biome: Biome): (s: seq<Species>)
    ensures |s| > 0
    ensures PolarBear in s <==> biome == Tundra
    ensures Cow in s <==> biome != Tundra
    ensures Pig in s <==> biome != Tundra
    ensures Chicken in s
    ensures forall k, j :: 0 <= k < j < |s| ==> s[k] != s[j]
  {
    if biome == Tundra then [PolarBear, Chicken] else [Cow, Pig, Chicken]
  }

  /** The draws of one animal spawn: species, offset, direction, speed, and
      the extra rejection roll of the desert and the tundra. */
  datatype AnimalDraws = AnimalDraws(kind: real, offset: real, side: real, speed: real, reject: real)

  /** `spawnAnimals(1)`: picks a species of the biome and a spot within 200
      pixels of the player, on the ground; a desert spawn is dropped with
      chance 0.7 and a tundra spawn with chance 0.5. The column is generated
      even when the spawn is dropped. */
  function SpawnAnimal(gen: Generator, w: World, p: Player, animals: seq<Animal>, d: AnimalDraws): (res: (World, seq<Animal>))
    requires Unit(d.kind)
    ensures forall c :: c in w ==> c in res.0 && res.0[c] == w[c]
    ensures Valid(w) ==> Valid(res.0)
    ensures res.1 == animals || (|res.1| == |animals| + 1 && res.1[..|animals|] == animals)
    ensures GridOf(p.x + (d.offset * 400.0 - 200.0)) in res.0
    ensures |res.1| == |animals| + 1 <==>
      !(gen.land.biome == Desert && d.reject < 0.7) && !(gen.land.biome == Tundra && d.reject < 0.5)
    ensures |res.1| == |animals| + 1 ==>
      var a := res.1[|animals|];
      && a.species in Kinds(gen.land.biome)
      && GridOf(a.x) in res.0 && a.y == StandingY(res.0, GridOf(a.x))
      && (Unit(d.offset) ==> -200.0 <= a.x - p.x < 200.0)
      && (Unit(d.speed) ==> Abs(a.vx) < 1.0)
  {
    var kinds := Kinds(gen.land.biome);
    var i := (d.kind * |kinds| as real).Floor;
    var species := kinds[i];
    var x := p.x + (d.offset * 400.0 - 200.0);
    var col := GridOf(x);
    var w' := EnsureColumn(gen, w, col);
    var vx := (if d.side < 0.5 then -1.0 else 1.0) * d.speed;
    if gen.land.biome == Desert && d.reject < 0.7 then (w', animals)
    else if gen.land.biome == Tundra && d.reject < 0.5 then (w', animals)
    else (w', animals + [Animal(species, x, StandingY(w', col), vx)])
  }

  /** The spawn rule of the update tick (game.js:860-863): below twenty
      animals and more than thirty seconds after the last attempt, one spawn
      is attempted and its time remembered. */
  method AnimalSpawnTick(gen: Generator, w: World, p: Player, animals: seq<Animal>, now: int, lastSpawn: int, d: AnimalDraws)
    returns (w': World, animals': seq<Animal>, lastSpawn': int)
    requires Unit(d.kind)
    ensures forall c :: c in w ==> c in w' && w'[c] == w[c]
    ensures Valid(w) ==> Valid(w')
    ensures |animals| >= MaxAnimals || now - lastSpawn <= AnimalSpawnInterval ==>
      w' == w && animals' == animals && lastSpawn' == lastSpawn
    ensures |animals| < MaxAnimals && now - lastSpawn > AnimalSpawnInterval ==>
      && lastSpawn' == now
      && (|animals'| == |animals| + 1 <==>
            !(gen.land.biome == Desert && d.reject < 0.7) && !(gen.land.biome == Tundra && d.reject < 0.5))
      && GridOf(p.x + (d.offset * 400.0 - 200.0)) in w'
    ensures |animals'| == |animals| + 1 ==>
      var a := animals'[|animals|];
      && a.species in Kinds(gen.land.biome)
      && GridOf(a.x) in w' && a.y == StandingY(w', GridOf(a.x))
      && (Unit(d.offset) ==> -200.0 <= a.x - p.x < 200.0)
      && (Unit(d.speed) ==> Abs(a.vx) < 1.0)
    ensures |animals| <= |animals'| <= |animals| + 1 && animals'[..|animals|] == animals
    ensures |animals| <= MaxAnimals ==> |animals'| <= MaxAnimals
  {
    if |animals| < MaxAnimals && now - lastSpawn > AnimalSpawnInterval {
      var s := SpawnAnimal(gen, w, p, animals, d);
      w', animals', lastSpawn' := s.0, s.1, now;
    } else {
      w', animals', lastSpawn' := w, animals, lastSpawn;
    }
  }

  /** The push of `resolveAnimalBlockCollision` for one non-air cell. Unlike
      the player's, it is applied without checking for overlap; when the
      square does overlap the cell, it leaves the square touching it. */
  function PushSquare(x: real, y: real, col: int, row: int): (res: (real, real))
    ensures res.0 == x || res.1 == y
    ensures Overlaps(SquareBox(x, y), CellBox(col, row)) ==>
      !Overlaps(SquareBox(res.0, res.1), CellBox(col, row)) && Touches(SquareBox(res.0, res.1), CellBox(col, row))
  {
    var b := SquareBox(x, y);
    var ox, oy := OverlapX(b, col), OverlapY(b, row);
    if ox < oy then
      (if x + AnimalSize / 2.0 < col as real * BlockSize + BlockSize / 2.0 then x - ox else x + ox, y)
    else
      (x, if y + AnimalSize / 2.0 < row as real * BlockSize + BlockSize / 2.0 then y - oy else y + oy)
  }

  function PushRows(w: World, x: real, y: real, col: int, row: int, lastRow: int): (real, real)
    requires col in w
    decreases lastRow - row + 1
  {
    if row > lastRow then (x, y)
    else
      var next := if Solid(w, col, row) then PushSquare(x, y, col, row) else (x, y);
      PushRows(w, next.0, next.1, col, row + 1, lastRow)
  }

  function PushCols(w: World, x: real, y: real, col: int, lastCol: int, firstRow: int, lastRow: int): (real, real)
    requires forall c :: col <= c <= lastCol ==> c in w
    decreases lastCol - col + 1
  {
    if col > lastCol then (x, y)
    else
      var next := PushRows(w, x, y, col, firstRow, lastRow);
      PushCols(w, next.0, next.1, col + 1, lastCol, firstRow, lastRow)
  }

  /** Every column under a square body whose left edge is at `x` is present. */
  ghost predicate SpanIn(w: World, x: real)
  {
    forall c :: GridOf(x) <= c <= GridOf(x + AnimalSize - 1.0) ==> c in w
  }

  /** No non-air cell lies under a square body at (x, y). */
  ghost predicate ClearUnder(w: World, x: real, y: real)
  {
    forall c, r :: GridOf(x) <= c <= GridOf(x + AnimalSize - 1.0) && GridOf(y) <= r <= GridOf(y + AnimalSize - 1.0) && c in w ==>
      !Solid(w, c, r)
  }

  /** `resolveAnimalBlockCollision` for a square at (x, y): every non-air
      cell under the box pushes it in turn, column by column. */
  function AnimalPush(w: World, x: real, y: real): (real, real)
    requires SpanIn(w, x)
  {
    PushCols(w, x, y, GridOf(x), GridOf(x + AnimalSize - 1.0), GridOf(y), GridOf(y + AnimalSize - 1.0))
  }

  /** With no non-air cell in the rows scanned, the square does not move. */
  lemma {:induction false} PushRowsStill(w: World, x: real, y: real, col: int, row: int, lastRow: int)
    requires col in w
    requires forall r :: row <= r <= lastRow ==> !Solid(w, col, r)
    ensures PushRows(w, x, y, col, row, lastRow) == (x, y)
    decreases lastRow - row + 1
  {
    if row <= lastRow {
      PushRowsStill(w, x, y, col, row + 1, lastRow);
    }
  }

  lemma {:induction false} PushColsStill(w: World, x: real, y: real, col: int, lastCol: int, firstRow: int, lastRow: int)
    requires forall c :: col <= c <= lastCol ==> c in w
    requires forall c, r :: col <= c <= lastCol && firstRow <= r <= lastRow && c in w ==> !Solid(w, c, r)
    ensures PushCols(w, x, y, col, lastCol, firstRow, lastRow) == (x, y)
    decreases lastCol - col + 1
  {
    if col <= lastCol {
      PushRowsStill(w, x, y, col, firstRow, lastRow);
      PushColsStill(w, x, y, col + 1, lastCol, firstRow, lastRow);
    }
  }

  /** A square with no non-air cell under it stays where it is. */
  lemma AnimalPushStill(w: World, x: real, y: real)
    requires SpanIn(w, x) && ClearUnder(w, x, y)
    ensures AnimalPush(w, x, y) == (x, y)
  {
    PushColsStill(w, x, y, GridOf(x), GridOf(x + AnimalSize - 1.0), GridOf(y), GridOf(y + AnimalSize - 1.0));
  }

  /** The push depends only on the columns it scans. */
  lemma {:induction false} PushRowsFrame(w: World, w': World, x: real, y: real, col: int, row: int, lastRow: int)
    requires col in w && col in w' && w'[col] == w[col]
    ensures PushRows(w', x, y, col, row, lastRow) == PushRows(w, x, y, col, row, lastRow)
    decreases lastRow - row + 1
  {
    if row <= lastRow {
      var next := if Solid(w, col, row) then PushSquare(x, y, col, row) else (x, y);
      PushRowsFrame(w, w', next.0, next.1, col, row + 1, lastRow);
    }
  }

  lemma {:induction false} PushColsFrame(w: World, w': World, x: real, y: real, col: int, lastCol: int, firstRow: int, lastRow: int)
    requires forall c :: col <= c <= lastCol ==> c in w && c in w' && w'[c] == w[c]
    ensures PushCols(w', x, y, col, lastCol, firstRow, lastRow) == PushCols(w, x, y, col, lastCol, firstRow, lastRow)
    decreases lastCol - col + 1
  {
    if col <= lastCol {
      PushRowsFrame(w, w', x, y, col, firstRow, lastRow);
      var next := PushRows(w, x, y, col, firstRow, lastRow);
      PushColsFrame(w, w', next.0, next.1, col + 1, lastCol, firstRow, lastRow);
    }
  }

  /** A world that keeps the columns under the square pushes it the same way. */
  lemma AnimalPushKept(w: World, w': World, x: real, y: real)
    requires SpanIn(w, x)
    requires forall c :: c in w ==> c in w' && w'[c] == w[c]
    ensures SpanIn(w', x) && AnimalPush(w', x, y) == AnimalPush(w, x, y)
  {
    PushColsFrame(w, w', x, y, GridOf(x), GridOf(x + AnimalSize - 1.0), GridOf(y), GridOf(y + AnimalSize - 1.0));
  }

  /** `updateAnimals` for one animal: step by its velocity, flip direction
      on a roll below 0.01, push out of the cells under the stepped square,
      and stand on the ground of the column it ends in (which overrides the
      push's vertical part). */
  method MoveAnimal(gen: Generator, w: World, a: Animal, flip: real) returns (w': World, moved: Animal)
    ensures forall c :: c in w ==> c in w' && w'[c] == w[c]
    ensures Valid(w) ==> Valid(w')
    ensures moved.species == a.species
    ensures moved.vx == (if flip < 0.01 then -a.vx else a.vx)
    ensures SpanIn(w', a.x + a.vx) && moved.x == AnimalPush(w', a.x + a.vx, a.y).0
    ensures GridOf(moved.x) in w' && moved.y == StandingY(w', GridOf(moved.x))
  {
    var x := a.x + a.vx;
    var vx := if flip < 0.01 then -a.vx else a.vx;
    var w1 := GenerateSpan(gen, w, GridOf(x), GridOf(x + AnimalSize - 1.0));
    var pushed := AnimalPush(w1, x, a.y);
    var col := GridOf(pushed.0);
    w' := EnsureColumn(gen, w1, col);
    moved := Animal(a.species, pushed.0, StandingY(w', col), vx);
    AnimalPushKept(w1, w', x, a.y);
  }

  /** Animal `m` is animal `a` after one step with roll `flip`, read in world
      `w`: same species, velocity flipped exactly on a roll below 0.01, at the
      x the push gives the stepped square, standing on its column's ground. */
  ghost predicate AnimalStepped(w: World, a: Animal, flip: real, m: Animal)
  {
    && m.species == a.species
    && m.vx == (if flip < 0.01 then -a.vx else a.vx)
    && SpanIn(w, a.x + a.vx) && m.x == AnimalPush(w, a.x + a.vx, a.y).0
    && GridOf(m.x) in w && m.y == StandingY(w, GridOf(m.x))
  }

  /** A world that keeps every column keeps every step's reading. */
  lemma AnimalSteppedKept(w: World, w': World, a: Animal, flip: real, m: Animal)
    requires AnimalStepped(w, a, flip, m)
    requires forall c :: c in w ==> c in w' && w'[c] == w[c]
    ensures AnimalStepped(w', a, flip, m)
  {
    StandingYKept(w, w', GridOf(m.x));
    AnimalPushKept(w, w', a.x + a.vx, a.y);
  }

  /** `updateAnimals`: every animal moves in list order, each with its own
      flip draw, against the world as the animals before it left it. */
  method MoveAnimals(gen: Generator, w: World, animals: seq<Animal>, flips: seq<real>) returns (w': World, moved: seq<Animal>)
    requires |flips| == |animals|
    ensures forall c :: c in w ==> c in w' && w'[c] == w[c]
    ensures Valid(w) ==> Valid(w')
    ensures |moved| == |animals|
    ensures forall k :: 0 <= k < |animals| ==> AnimalStepped(w', animals[k], flips[k], moved[k])
  {
    w', moved := w, [];
    var i := 0;
    while i < |animals|
      invariant 0 <= i <= |animals| && |moved| == i
      invariant forall c :: c in w ==> c in w' && w'[c] == w[c]
      invariant Valid(w) ==> Valid(w')
      invariant forall k :: 0 <= k < i ==> AnimalStepped(w', animals[k], flips[k], moved[k])
    {
      var next, a := MoveAnimal(gen, w', animals[i], flips[i]);
      forall k | 0 <= k < i
        ensures AnimalStepped(next, animals[k], flips[k], moved[k])
      {
        AnimalSteppedKept(w', next, animals[k], flips[k], moved[k]);
      }
      w', moved := next, moved + [a];
      i := i + 1;
    }
  }

}

=== FILE: interaction.dfy ===
/** The player's clicks and the tree-regrowth timer (game.js:520-588,
    1030-1043): hitting mobs and animals for meat, opening the crafting
    table, placing and breaking blocks, and regrowing felled trees. */
module Interaction {
  import opened Blocks
  import opened Terrain
  import opened World
  import opened Bodies
  import opened Inventory
  import opened Collision

  /** Milliseconds between felling a tree and its regrowth. */
  const RegrowDelay: int := 60000

  /** A felled tree waiting to regrow: the ground cell it stood on, and when. */
  datatype CutTree = CutTree(col: int, row: int, regrowAt: int)

  /** Every pending regrowth points into a column that is present and has been
      edited, so eviction can never remove it. */
  ghost predicate Anchored(w: World, trees: seq<CutTree>)
  {
    forall k :: 0 <= k < |trees| ==> trees[k].col in w && w[trees[k].col].modified
  }

  /** The state a click can change. */
  datatype Scene = Scene(world: World, inv: Bag, trees: seq<CutTree>, mobs: seq<Mob>, animals: seq<Animal>)

  datatype Outcome =
    | Ignored       // the game is paused
    | SlewMob
    | SlewAnimal
    | OpenedTable
    | Placed
    | Nothing       // an empty cell and nothing to place, or no cell at all
    | NeedsTool(tool: Tool)
    | OutOfReach
    | Broke

  /** What a click on a cell does to the world, the inventory and the
      regrowth list. */
  datatype Effect = Effect(world: World, inv: Bag, trees: seq<CutTree>, outcome: Outcome)

  /** How far from the player's centre a block may be broken, on each axis:
      1.5 blocks by hand, 2.5 with any pickaxe. */
  function Reach(t: Tool): real
  {
    if t == Hand then BlockSize * 1.5 else BlockSize * 2.5
  }

  predicate InReach(p: Player, t: Tool, col: int, row: int)
  {
    && Abs(col as real * BlockSize + BlockSize / 2.0 - (p.x + PlayerWidth / 2.0)) <= Reach(t)
    && Abs(row as real * BlockSize + BlockSize / 2.0 - (p.y + PlayerHeight / 2.0)) <= Reach(t)
  }

  /** Every pickaxe reaches whatever the hand reaches, and the cells holding
      the player's own centre are always in reach. */
  lemma ReachGrowsWithTool(p: Player, t: Tool, col: int, row: int)
    ensures InReach(p, Hand, col, row) ==> InReach(p, t, col, row)
    ensures col == GridOf(p.x + PlayerWidth / 2.0) && row == GridOf(p.y + PlayerHeight / 2.0) ==> InReach(p, t, col, row)
  {
  }

  /** The regrowth record of a broken tree block: the column's ground level is
      looked up in `w`, and a tree is recorded only when that ground cell is
      grass or snow. */
  function RecordTree(w: World, col: int, trees: seq<CutTree>, now: int): (r: seq<CutTree>)
    requires col in w
    ensures var g := GroundLevel(w[col].cells);
      && (r != trees <==> CellAt(w[col], g) == Some(Grass) || CellAt(w[col], g) == Some(Snow))
      && (r != trees ==> r == trees + [CutTree(col, g, now + RegrowDelay)])
  {
    var g := GroundLevel(w[col].cells);
    if CellAt(w[col], g) == Some(Grass) || CellAt(w[col], g) == Some(Snow) then
      trees + [CutTree(col, g, now + RegrowDelay)]
    else trees
  }

  /** The world after `col` is written at `row`: the cell holds `b`, the
      column is marked modified, and nothing else differs. */
  ghost predicate WrittenAt(w: World, w': World, col: int, row: int, b: Block)
    requires col in w && 0 <= row < |w[col].cells|
  {
    && w'.Keys == w.Keys
    && (forall c :: c in w && c != col ==> w'[c] == w[c])
    && w'[col] == Column(w[col].cells[row := b], true)
  }

  /** The inventory after `n` is added to `i`, every other count unchanged. */
  ghost predicate AddedTo(inv: Bag, inv': Bag, i: Item, n: int)
  {
    && Count(inv', i) == Count(inv, i) + n
    && forall j :: j != i ==> Count(inv', j) == Count(inv, j)
  }

  /** A non-air, non-table cell: one a click tries to break. */
  predicate Breakable(cell: Option<Block>)
  {
    cell.Some? && cell.value != Air && cell.value != CraftingTable
  }

  /** The place/break part of the click handler on a column that is already
      generated, with both corrections of the Findings: a click outside the
      column's rows does nothing, and a tree is recorded from the ground level
      after the broken block is gone. A crafting table opens its menu; an
      empty cell takes the selected block if the inventory holds one, without
      any reach check; any other block breaks when the tool is good enough and
      the block is within reach, adding its drop to the inventory. */
  function ClickCell(w: World, inv: Bag, trees: seq<CutTree>, p: Player, tool: Tool,
                     selected: Option<Block>, col: int, row: int, now: int): (e: Effect)
    requires col in w
    ensures var cell := CellAt(w[col], row);
      && (e.outcome == OpenedTable <==> cell == Some(CraftingTable))
      && (e.outcome == Placed <==> cell == Some(Air) && selected.Some? && Count(inv, Of(selected.value)) > 0)
      && (e.outcome.NeedsTool? <==> Breakable(cell) && !Breaks(tool, cell.value))
      && (e.outcome.NeedsTool? ==> e.outcome.tool == RequiredTool(cell.value))
      && (e.outcome == Broke <==> Breakable(cell) && Breaks(tool, cell.value) && InReach(p, tool, col, row))
      && (e.outcome !in {Placed, Broke} ==> e == Effect(w, inv, trees, e.outcome))
      && (e.outcome == Placed ==>
            && WrittenAt(w, e.world, col, row, selected.value)
            && AddedTo(inv, e.inv, Of(selected.value), -1)
            && e.trees == trees)
      && (e.outcome == Broke ==>
            && WrittenAt(w, e.world, col, row, Air)
            && AddedTo(inv, e.inv, DropFor(cell.value), 1)
            && e.trees == (if IsTreePart(cell.value) then RecordTree(e.world, col, trees, now) else trees))
    ensures Valid(w) ==> Valid(e.world)
    ensures NonNegative(inv) ==> NonNegative(e.inv)
    ensures Anchored(w, trees) ==> Anchored(e.world, e.trees)
  {
    match CellAt(w[col], row)
    case None => Effect(w, inv, trees, Nothing)
    case Some(b) =>
      if b == CraftingTable then Effect(w, inv, trees, OpenedTable)
      else if b == Air then
        if selected.Some? && Count(inv, Of(selected.value)) > 0 then PlaceAt(w, inv, trees, col, row, selected.value)
        else Effect(w, inv, trees, Nothing)
      else if !Breaks(tool, b) then Effect(w, inv, trees, NeedsTool(RequiredTool(b)))
      else if !InReach(p, tool, col, row) then Effect(w, inv, trees, OutOfReach)
      else BreakAt(w, inv, trees, col, row, now)
  }

  /** Placing `b` into a cell of a present column uses up one `b`. */
  function PlaceAt(w: World, inv: Bag, trees: seq<CutTree>, col: int, row: int, b: Block): (e: Effect)
    requires col in w && 0 <= row < |w[col].cells|
    ensures e.outcome == Placed && e.trees == trees
    ensures WrittenAt(w, e.world, col, row, b) && AddedTo(inv, e.inv, Of(b), -1)
    ensures Valid(w) ==> Valid(e.world)
    ensures NonNegative(inv) && Count(inv, Of(b)) > 0 ==> NonNegative(e.inv)
    ensures Anchored(w, trees) ==> Anchored(e.world, e.trees)
  {
    Effect(Edit(w, col, row, b), Add(inv, Of(b), -1), trees, Placed)
  }

  /** Breaking the block in a cell of a present column: the cell becomes
      air, the block's drop is added, and a tree block may start a regrowth. */
  function BreakAt(w: World, inv: Bag, trees: seq<CutTree>, col: int, row: int, now: int): (e: Effect)
    requires col in w && 0 <= row < |w[col].cells|
    ensures var b := w[col].cells[row];
      && e.outcome == Broke
      && WrittenAt(w, e.world, col, row, Air)
      && AddedTo(inv, e.inv, DropFor(b), 1)
      && e.trees == (if IsTreePart(b) then RecordTree(e.world, col, trees, now) else trees)
    ensures Valid(w) ==> Valid(e.world)
    ensures NonNegative(inv) ==> NonNegative(e.inv)
    ensures Anchored(w, trees) ==> Anchored(e.world, e.trees)
  {
    var b := w[col].cells[row];
    var w' := Edit(w, col, row, Air);
    var trees' := if IsTreePart(b) then RecordTree(w', col, trees, now) else trees;
    Effect(w', Add(inv, DropFor(b), 1), trees', Broke)
  }

  /** The place/break logic with the two slips of game.js:548-587 kept: a row
      outside the column reads as `undefined`, which is neither the table nor
      air, needs only a hand and drops the key "undefined"; and a broken tree
      block is recorded from the ground level taken while the block is still
      there. The write of "air" outside the column is dropped, since a column
      holds only its hundred rows, so only a first click on such a cell is
      described. */
  function ClickCellAsWritten(w: World, inv: Bag, trees: seq<CutTree>, p: Player, tool: Tool,
                              selected: Option<Block>, col: int, row: int, now: int): (e: Effect)
    requires col in w
    ensures col in e.world
    ensures var cell := CellAt(w[col], row);
      && (e.outcome == Broke <==>
            cell != Some(Air) && cell != Some(CraftingTable) && (cell.None? || Breaks(tool, cell.value))
            && InReach(p, tool, col, row))
      && (e.outcome == Broke ==>
            && e.world[col].modified
            && AddedTo(inv, e.inv, if cell.Some? then DropFor(cell.value) else Unnamed, 1)
            && e.trees == (if cell.Some? && IsTreePart(cell.value) then RecordTree(w, col, trees, now) else trees))
  {
    var cell := CellAt(w[col], row);
    if cell == Some(CraftingTable) then Effect(w, inv, trees, OpenedTable)
    else if cell == Some(Air) && selected.Some? && Count(inv, Of(selected.value)) > 0 then
      Effect(Edit(w, col, row, selected.value), Add(inv, Of(selected.value), -1), trees, Placed)
    else if cell == Some(Air) then Effect(w, inv, trees, Nothing)
    else
      var required := if cell.Some? then RequiredTool(cell.value) else Hand;
      if Tier(tool) < Tier(required) then Effect(w, inv, trees, NeedsTool(required))
      else if !InReach(p, tool, col, row) then Effect(w, inv, trees, OutOfReach)
      else
        var trees' := if cell.Some? && IsTreePart(cell.value) then RecordTree(w, col, trees, now) else trees;
        var drop := if cell.Some? then DropFor(cell.value) else Unnamed;
        Effect(Edit(w, col, row, Air), Add(inv, drop, 1), trees', Broke)
  }

  /** Finding: as written, a click on a row outside the column (row -1 above
      the sky, row 100 below the bedrock) within reach "breaks" it: the column
      is marked modified and the key "undefined" gains one. The corrected
      handler does nothing there. */
  lemma AsWrittenBreaksOutsideColumn(w: World, inv: Bag, trees: seq<CutTree>, p: Player, tool: Tool,
                                     selected: Option<Block>, col: int, row: int, now: int)
    requires col in w && WellFormed(w[col])
    requires row < 0 || row >= TotalRows
    requires InReach(p, tool, col, row)
    ensures var e := ClickCellAsWritten(w, inv, trees, p, tool, selected, col, row, now);
      && e.outcome == Broke && e.world[col].modified
      && Count(e.inv, Unnamed) == Count(inv, Unnamed) + 1
    ensures ClickCell(w, inv, trees, p, tool, selected, col, row, now) == Effect(w, inv, trees, Nothing)
  {
    assert CellAt(w[col], row) == None;
  }

  /** Finding: as written, breaking any block of a standing tree (a tree
      block with only air and tree blocks above it) never records a
      regrowth, because the ground level is read while the block is still
      there and is therefore a tree block, never grass or snow. */
  lemma AsWrittenSkipsStandingTree(w: World, inv: Bag, trees: seq<CutTree>, p: Player, tool: Tool,
                                   selected: Option<Block>, col: int, row: int, now: int)
    requires col in w
    requires 0 <= row < |w[col].cells| && IsTreePart(w[col].cells[row])
    requires forall i :: 0 <= i < row ==> w[col].cells[i] == Air || IsTreePart(w[col].cells[i])
    ensures ClickCellAsWritten(w, inv, trees, p, tool, selected, col, row, now).trees == trees
  {
    var cells := w[col].cells;
    var g := GroundLevel(cells);
    if g > row {
      assert false;
    }
    assert IsTreePart(cells[g]);
  }

  /** The corrected handler records the tree when its last block above the
      ground goes: with nothing but air above the broken block and grass or
      snow right below it, the record names that ground cell. */
  lemma CorrectedRecordsFelledTree(w: World, inv: Bag, trees: seq<CutTree>, p: Player, tool: Tool,
                                   selected: Option<Block>, col: int, row: int, now: int)
    requires col in w
    requires 0 <= row && row + 1 < |w[col].cells| && IsTreePart(w[col].cells[row])
    requires forall i :: 0 <= i < row ==> w[col].cells[i] == Air
    requires w[col].cells[row + 1] == Grass || w[col].cells[row + 1] == Snow
    requires InReach(p, tool, col, row)
    ensures var e := ClickCell(w, inv, trees, p, tool, selected, col, row, now);
      e.outcome == Broke && e.trees == trees + [CutTree(col, row + 1, now + RegrowDelay)]
  {
    var b := w[col].cells[row];
    assert CellAt(w[col], row) == Some(b) && b != Air && b != CraftingTable && Breaks(tool, b);
    assert ClickCell(w, inv, trees, p, tool, selected, col, row, now) == BreakAt(w, inv, trees, col, row, now);
    BreakRecordsFelledTree(w, inv, trees, col, row, now);
  }

  /** Breaking the last block of a tree above grass or snow records it. */
  lemma BreakRecordsFelledTree(w: World, inv: Bag, trees: seq<CutTree>, col: int, row: int, now: int)
    requires col in w
    requires 0 <= row && row + 1 < |w[col].cells| && IsTreePart(w[col].cells[row])
    requires forall i :: 0 <= i < row ==> w[col].cells[i] == Air
    requires w[col].cells[row + 1] == Grass || w[col].cells[row + 1] == Snow
    ensures BreakAt(w, inv, trees, col, row, now).trees == trees + [CutTree(col, row + 1, now + RegrowDelay)]
  {
    var e := BreakAt(w, inv, trees, col, row, now);
    var cells' := e.world[col].cells;
    assert cells' == w[col].cells[row := Air];
    GroundLevelUnique(cells', row + 1);
  }

  /** The first of a list of squares (top-left corners) that contains the
      point (x, y), or the list's length when none does. */
  function FirstCovering(corners: seq<(real, real)>, x: real, y: real): (k: nat)
    ensures k <= |corners|
    ensures k < |corners| ==> Covers(corners[k], x, y)
    ensures forall j :: 0 <= j < k ==> !Covers(corners[j], x, y)
  {
    if |corners| == 0 then 0
    else if Covers(corners[0], x, y) then 0
    else 1 + FirstCovering(corners[1..], x, y)
  }

  /** The AnimalSize square with top-left corner `c` contains (x, y); left and
      top edges included, right and bottom edges excluded. */
  predicate Covers(c: (real, real), x: real, y: real)
  {
    c.0 <= x < c.0 + AnimalSize && c.1 <= y < c.1 + AnimalSize
  }

  /** The top-left corners of a list of bodies, in order. */
  function Corners<T>(bodies: seq<T>, corner: T -> (real, real)): seq<(real, real)>
  {
    seq(|bodies|, k requires 0 <= k < |bodies| => corner(bodies[k]))
  }

  function MobCorner(m: Mob): (real, real)
  {
    (m.x, m.y)
  }

  function AnimalCorner(a: Animal): (real, real)
  {
    (a.x, a.y)
  }

  /** The click handler (game.js:520-588) at world point (x, y): nothing while
      paused; else the first mob under the point dies for one meat; else the
      first animal under it; else the cell under it is clicked by the
      corrected `ClickCell`. Opening a crafting table is reported as
      `OpenedTable`; pausing for the table's menu is left to the caller. */
  function Click(gen: Generator, s: Scene, p: Player, tool: Tool, selected: Option<Block>,
                 x: real, y: real, now: int, paused: bool): (r: (Scene, Outcome))
    requires Valid(s.world)
    ensures Valid(r.0.world)
    ensures paused ==> r == (s, Ignored)
    ensures !paused ==>
      var km, ka := FirstCovering(Corners(s.mobs, MobCorner), x, y), FirstCovering(Corners(s.animals, AnimalCorner), x, y);
      && (km < |s.mobs| ==>
            && r.1 == SlewMob
            && r.0 == s.(mobs := s.mobs[..km] + s.mobs[km + 1..], inv := r.0.inv)
            && AddedTo(s.inv, r.0.inv, Meat, 1))
      && (km == |s.mobs| && ka < |s.animals| ==>
            && r.1 == SlewAnimal
            && r.0 == s.(animals := s.animals[..ka] + s.animals[ka + 1..], inv := r.0.inv)
            && AddedTo(s.inv, r.0.inv, Meat, 1))
      && (km == |s.mobs| && ka == |s.animals| ==>
            var col := GridOf(x);
            var e := ClickCell(EnsureColumn(gen, s.world, col), s.inv, s.trees, p, tool, selected, col, GridOf(y), now);
            r == (Scene(e.world, e.inv, e.trees, s.mobs, s.animals), e.outcome))
    ensures NonNegative(s.inv) ==> NonNegative(r.0.inv)
    ensures Anchored(s.world, s.trees) ==> Anchored(r.0.world, r.0.trees)
  {
    if paused then (s, Ignored)
    else
      var km := FirstCovering(Corners(s.mobs, MobCorner), x, y);
      if km < |s.mobs| then
        (s.(mobs := s.mobs[..km] + s.mobs[km + 1..], inv := Add(s.inv, Meat, 1)), SlewMob)
      else
        var ka := FirstCovering(Corners(s.animals, AnimalCorner), x, y);
        if ka < |s.animals| then
          (s.(animals := s.animals[..ka] + s.animals[ka + 1..], inv := Add(s.inv, Meat, 1)), SlewAnimal)
        else
          var col := GridOf(x);
          var e := ClickCell(EnsureColumn(gen, s.world, col), s.inv, s.trees, p, tool, selected, col, GridOf(y), now);
          (Scene(e.world, e.inv, e.trees, s.mobs, s.animals), e.outcome)
  }

  /** The list without any record at (col, row); every other record stays. */
  function Without(trees: seq<CutTree>, col: int, row: int): (r: seq<CutTree>)
    ensures |r| <= |trees|
    ensures forall u :: u in r <==> u in trees && !(u.col == col && u.row == row)
    decreases |trees|
  {
    if |trees| == 0 then []
    else
      var rest := Without(trees[1..], col, row);
      assert forall u :: u in trees <==> u == trees[0] || u in trees[1..];
      if trees[0].col == col && trees[0].row == row then rest else [trees[0]] + rest
  }

  /** The ground cell a due record regrows from: grass in the forest, snow
      in the tundra. */
  predicate Regrows(biome: Biome, c: Column, row: int)
  {
    (biome == Forest && CellAt(c, row) == Some(Grass)) || (biome == Tundra && CellAt(c, row) == Some(Snow))
  }

  /** `regrowTree` for one record: once due, a forest grass cell or a tundra
      snow cell grows its tree back (two trunk blocks and a crown, the crown
      only inside the column), and every record at that spot is dropped. The
      column's `modified` flag is left as it is. */
  function Regrow(w: World, biome: Biome, trees: seq<CutTree>, t: CutTree, now: int): (res: (World, seq<CutTree>))
    requires t.col in w
    ensures now < t.regrowAt ==> res == (w, trees)
    ensures now >= t.regrowAt ==> res.1 == Without(trees, t.col, t.row)
    ensures res.0.Keys == w.Keys
    ensures forall c :: c in w && c != t.col ==> res.0[c] == w[c]
    ensures res.0[t.col].modified == w[t.col].modified
    ensures var before, after := w[t.col].cells, res.0[t.col].cells;
      && |after| == |before|
      && (forall i :: 0 <= i < |before| && !(t.row - 3 <= i < t.row) ==> after[i] == before[i])
      && (now >= t.regrowAt && biome == Forest && CellAt(w[t.col], t.row) == Some(Grass) ==>
            forall i :: 0 <= i < |before| && t.row - 3 <= i < t.row ==> after[i] == (if i == t.row - 3 then Leaves else Wood))
      && (now >= t.regrowAt && biome == Tundra && CellAt(w[t.col], t.row) == Some(Snow) ==>
            forall i :: 0 <= i < |before| && t.row - 3 <= i < t.row ==> after[i] == (if i == t.row - 3 then SpruceLeaves else SpruceWood))
      && (!(now >= t.regrowAt && Regrows(biome, w[t.col], t.row)) ==> after == before)
  {
    if now < t.regrowAt then (w, trees)
    else
      var c := w[t.col];
      var cells :=
        if biome == Forest && CellAt(c, t.row) == Some(Grass) then Tree(c.cells, t.row, Wood, Leaves)
        else if biome == Tundra && CellAt(c, t.row) == Some(Snow) then Tree(c.cells, t.row, SpruceWood, SpruceLeaves)
        else c.cells;
      (w[t.col := Column(cells, c.modified)], Without(trees, t.col, t.row))
  }

  /** The trunk block a biome regrows: spruce wood in the tundra, wood elsewhere. */
  function Trunk(biome: Biome): Block
  {
    if biome == Tundra then SpruceWood else Wood
  }

  /** The crown block a biome regrows: spruce leaves in the tundra, leaves elsewhere. */
  function Crown(biome: Biome): Block
  {
    if biome == Tundra then SpruceLeaves else Leaves
  }

  /** Once due, a record on a regrowing ground cell puts the biome's tree
      back above it, and nothing else in the column changes. */
  lemma RegrowPutsTree(w: World, biome: Biome, trees: seq<CutTree>, t: CutTree, now: int)
    requires t.col in w && now >= t.regrowAt && Regrows(biome, w[t.col], t.row)
    ensures Regrow(w, biome, trees, t, now).0[t.col] ==
      Column(Tree(w[t.col].cells, t.row, Trunk(biome), Crown(biome)), w[t.col].modified)
  {
  }

  /** A snapshot record at this spot that is due. */
  predicate DueAt(snapshot: seq<CutTree>, col: int, row: int, now: int)
  {
    exists k :: 0 <= k < |snapshot| && snapshot[k].col == col && snapshot[k].row == row && now >= snapshot[k].regrowAt
  }

  /** `cutTrees.forEach(regrowTree)`: the loop walks the list as it was when
      the loop began, while each regrowth filters the live list. */
  function RegrowEach(w: World, biome: Biome, snapshot: seq<CutTree>, trees: seq<CutTree>, now: int): (res: (World, seq<CutTree>))
    requires forall k :: 0 <= k < |snapshot| ==> snapshot[k].col in w
    ensures res.0.Keys == w.Keys
    ensures forall c :: c in w ==> res.0[c].modified == w[c].modified && |res.0[c].cells| == |w[c].cells|
    ensures forall c :: c in w && (forall k :: 0 <= k < |snapshot| ==> snapshot[k].col != c) ==> res.0[c] == w[c]
    ensures forall u :: u in res.1 <==> u in trees && !DueAt(snapshot, u.col, u.row, now)
    decreases |snapshot|
  {
    if |snapshot| == 0 then (w, trees)
    else
      var first := Regrow(w, biome, trees, snapshot[0], now);
      var rest := RegrowEach(first.0, biome, snapshot[1..], first.1, now);
      forall u
        ensures u in rest.1 <==> u in trees && !DueAt(snapshot, u.col, u.row, now)
      {
        DueAtCons(snapshot, u.col, u.row, now);
      }
      (rest.0, rest.1)
  }

  /** A spot is due in a snapshot exactly when the first record makes it due
      or the rest of the snapshot does. */
  lemma DueAtCons(snapshot: seq<CutTree>, col: int, row: int, now: int)
    requires |snapshot| > 0
    ensures DueAt(snapshot, col, row, now) <==>
      (snapshot[0].col == col && snapshot[0].row == row && now >= snapshot[0].regrowAt) || DueAt(snapshot[1..], col, row, now)
  {
    if DueAt(snapshot[1..], col, row, now) {
      var k :| 0 <= k < |snapshot[1..]| && snapshot[1..][k].col == col && snapshot[1..][k].row == row && now >= snapshot[1..][k].regrowAt;
      assert snapshot[k + 1] == snapshot[1..][k];
    }
    if DueAt(snapshot, col, row, now) && !(snapshot[0].col == col && snapshot[0].row == row && now >= snapshot[0].regrowAt) {
      var k :| 0 <= k < |snapshot| && snapshot[k].col == col && snapshot[k].row == row && now >= snapshot[k].regrowAt;
      assert k > 0 && snapshot[1..][k - 1] == snapshot[k];
    }
  }

  /** Walking a snapshot in which every record of column `c` names row `r`,
      over a column whose ground cell at `r` regrows: the column ends with
      the biome's tree above `r` when some record there is due, and is left
      as it was when none is. */
  lemma {:induction false} RegrowEachColumn(w: World, biome: Biome, snapshot: seq<CutTree>, trees: seq<CutTree>,
                                            now: int, c: int, r: int)
    requires forall k :: 0 <= k < |snapshot| ==> snapshot[k].col in w
    requires c in w && Regrows(biome, w[c], r)
    requires forall k :: 0 <= k < |snapshot| && snapshot[k].col == c ==> snapshot[k].row == r
    ensures RegrowEach(w, biome, snapshot, trees, now).0[c].cells ==
      if DueAt(snapshot, c, r, now) then Tree(w[c].cells, r, Trunk(biome), Crown(biome)) else w[c].cells
    decreases |snapshot|
  {
    if |snapshot| > 0 {
      var t := snapshot[0];
      var first := Regrow(w, biome, trees, t, now);
      var grown := Tree(w[c].cells, r, Trunk(biome), Crown(biome));
      TreeShape(w[c].cells, r, Trunk(biome), Crown(biome));
      if t.col == c && now >= t.regrowAt {
        RegrowPutsTree(w, biome, trees, t, now);
        assert first.0[c].cells == grown;
        TreeTwice(w[c].cells, r, Trunk(biome), Crown(biome));
      } else {
        assert first.0[c] == w[c];
      }
      assert CellAt(first.0[c], r) == CellAt(w[c], r);
      assert forall k :: 0 <= k < |snapshot[1..]| ==> snapshot[1..][k] == snapshot[k + 1];
      RegrowEachColumn(first.0, biome, snapshot[1..], first.1, now, c, r);
      DueAtCons(snapshot, c, r, now);
    }
  }

  /** The regrowth step of the update tick: every due record is removed
      (together with any other record at its spot) and every other record
      stays; the world keeps its columns and their `modified` flags, so the
      records stay anchored. */
  function RegrowTrees(w: World, biome: Biome, trees: seq<CutTree>, now: int): (res: (World, seq<CutTree>))
    requires Anchored(w, trees)
    ensures res.0.Keys == w.Keys
    ensures forall c :: c in w ==> res.0[c].modified == w[c].modified
    ensures forall c :: c in w && (forall k :: 0 <= k < |trees| ==> trees[k].col != c) ==> res.0[c] == w[c]
    ensures Valid(w) ==> Valid(res.0)
    ensures forall u :: u in res.1 <==> u in trees && !DueAt(trees, u.col, u.row, now)
    ensures forall u :: u in res.1 ==> now < u.regrowAt
    ensures Anchored(res.0, res.1)
    ensures forall c, r :: c in w && Regrows(biome, w[c], r)
                           && (forall k :: 0 <= k < |trees| && trees[k].col == c ==> trees[k].row == r) ==>
      res.0[c].cells == if DueAt(trees, c, r, now) then Tree(w[c].cells, r, Trunk(biome), Crown(biome)) else w[c].cells
  {
    var res := RegrowEach(w, biome, trees, trees, now);
    forall c, r | c in w && Regrows(biome, w[c], r)
                  && (forall k :: 0 <= k < |trees| && trees[k].col == c ==> trees[k].row == r)
      ensures res.0[c].cells == if DueAt(trees, c, r, now) then Tree(w[c].cells, r, Trunk(biome), Crown(biome)) else w[c].cells
    {
      RegrowEachColumn(w, biome, trees, trees, now, c, r);
    }
    forall k | 0 <= k < |res.1|
      ensures res.1[k].col in res.0 && res.0[res.1[k].col].modified
    {
      assert res.1[k] in trees;
    }
    forall u | u in res.1
      ensures now < u.regrowAt
    {
      var k :| 0 <= k < |trees| && trees[k] == u;
    }
    res
  }

  /** Generating the view never drops a record's column. */
  lemma VisibleRangeKeepsAnchored(gen: Generator, w: World, trees: seq<CutTree>, camX: real, width: real)
    requires Anchored(w, trees)
    ensures Anchored(EnsureVisibleRange(gen, w, camX, width), trees)
  {
  }

  /** A due record on forest grass puts two wood blocks and leaves back above it. */
  lemma RegrowsForest(w: World, trees: seq<CutTree>, t: CutTree, now: int)
    requires t.col in w && now >= t.regrowAt && CellAt(w[t.col], t.row) == Some(Grass)
    requires t.row >= 3
    ensures var grown := Regrow(w, Forest, trees, t, now).0[t.col].cells;
      grown[t.row - 1] == Wood && grown[t.row - 2] == Wood && grown[t.row - 3] == Leaves
  {
    var grown := Regrow(w, Forest, trees, t, now).0[t.col].cells;
    assert forall i :: t.row - 3 <= i < t.row ==> grown[i] == (if i == t.row - 3 then Leaves else Wood);
  }

  /** A forest tree felled with the corrected handler grows back once the
      regrowth delay has passed: trunk blocks at the two rows above the grass
      and leaves above them. */
  lemma FelledTreeRegrows(w: World, inv: Bag, trees: seq<CutTree>, p: Player, tool: Tool,
                          selected: Option<Block>, col: int, row: int, now: int, later: int)
    requires col in w
    requires 2 <= row && row + 1 < |w[col].cells| && IsTreePart(w[col].cells[row])
    requires forall i :: 0 <= i < row ==> w[col].cells[i] == Air
    requires w[col].cells[row + 1] == Grass
    requires InReach(p, tool, col, row)
    requires later >= now + RegrowDelay
    ensures var e := ClickCell(w, inv, trees, p, tool, selected, col, row, now);
      var t := CutTree(col, row + 1, now + RegrowDelay);
      && e.outcome == Broke && e.trees == trees + [t]
      && col in e.world && |e.world[col].cells| == |w[col].cells|
      && var grown := Regrow(e.world, Forest, e.trees, t, later).0[col].cells;
         grown[row] == Wood && grown[row - 1] == Wood && grown[row - 2] == Leaves
  {
    var e := ClickCell(w, inv, trees, p, tool, selected, col, row, now);
    var t := CutTree(col, row + 1, now + RegrowDelay);
    assert e.outcome == Broke && e.trees == trees + [t] by {
      CorrectedRecordsFelledTree(w, inv, trees, p, tool, selected, col, row, now);
    }
    assert col in e.world && |e.world[col].cells| == |w[col].cells| && CellAt(e.world[col], t.row) == Some(Grass);
    RegrowsForest(e.world, e.trees, t, later);
    var grown := Regrow(e.world, Forest, e.trees, t, later).0[col].cells;
    assert grown[row] == Wood && grown[row - 1] == Wood && grown[row - 2] == Leaves;
  }
}

=== FILE: inventory.dfy ===
/** Inventory counts, recipes and crafting (game.js:207-313). */
module Inventory {
  import opened Blocks

  /** Item counts by key. A key that is absent counts as zero, as the
      game's `inventory[item] || 0` does. */
  type Bag = map<Item, int>

  function Count(inv: Bag, i: Item): int
  {
    if i in inv then inv[i] else 0
  }

  ghost predicate NonNegative(inv: Bag)
  {
    forall i :: i in inv ==> inv[i] >= 0
  }

  /** Adds `n` to one count and leaves every other count alone. */
  function Add(inv: Bag, i: Item, n: int): (r: Bag)
    ensures Count(r, i) == Count(inv, i) + n
    ensures forall j :: j != i ==> Count(r, j) == Count(inv, j)
    ensures NonNegative(inv) && Count(inv, i) + n >= 0 ==> NonNegative(r)
  {
    inv[i := Count(inv, i) + n]
  }

  /** One ingredient line of a recipe. */
  datatype Need = Need(item: Item, amount: nat)

  /** The recipes needing no crafting table: only the table itself, from wood. */
  function BasicRecipe(recipe: Item): (r: Option<seq<Need>>)
    ensures r.Some? <==> recipe == Of(CraftingTable)
    ensures r.Some? ==> forall k :: 0 <= k < |r.value| ==> r.value[k].item == Of(Wood)
  {
    if recipe == Of(CraftingTable) then Some([Need(Of(Wood), 4)]) else None
  }

  /** The recipes of the crafting table: the four pickaxes, each starting
      with five wood, and brick, fence, glass and mossy stone; each needs one
      or two ingredients. */
  function TableRecipe(recipe: Item): (r: Option<seq<Need>>)
    ensures r.Some? <==> (recipe.ToolItem? && recipe.tool != Hand)
                         || recipe in {Of(Brick), Of(Fence), Of(Glass), Of(MossyStone)}
    ensures r.Some? ==> 1 <= |r.value| <= 2
    ensures r.Some? && recipe.ToolItem? ==> r.value[0] == Need(Of(Wood), 5)
  {
    match recipe
    case ToolItem(WoodenPickaxe) => Some([Need(Of(Wood), 5)])
    case ToolItem(StonePickaxe) => Some([Need(Of(Wood), 5), Need(Of(Cobblestone), 3)])
    case ToolItem(IronPickaxe) => Some([Need(Of(Wood), 5), Need(IronIngot, 3)])
    case ToolItem(DiamondPickaxe) => Some([Need(Of(Wood), 5), Need(Diamond, 3)])
    case Of(Brick) => Some([Need(Of(Wood), 2), Need(Of(Stone), 2)])
    case Of(Fence) => Some([Need(Of(Wood), 4)])
    case Of(Glass) => Some([Need(Of(Sand), 3)])
    case Of(MossyStone) => Some([Need(Of(Stone), 4), Need(Coal, 1)])
    case _ => None
  }

  function Recipe(recipe: Item, isBasic: bool): Option<seq<Need>>
  {
    if isBasic then BasicRecipe(recipe) else TableRecipe(recipe)
  }

  /** Total amount of `i` a list of needs asks for. */
  function Needed(needs: seq<Need>, i: Item): nat
  {
    if |needs| == 0 then 0
    else (if needs[0].item == i then needs[0].amount else 0) + Needed(needs[1..], i)
  }

  /** Every ingredient line is covered by the inventory. */
  predicate Affordable(inv: Bag, needs: seq<Need>)
  {
    forall k :: 0 <= k < |needs| ==> Count(inv, needs[k].item) >= needs[k].amount
  }

  /** No item is listed twice. */
  predicate Distinct(needs: seq<Need>)
  {
    forall j, k :: 0 <= j < k < |needs| ==> needs[j].item != needs[k].item
  }

  /** Every recipe of either book lists each ingredient once, in a positive
      amount, and never needs the item it makes. */
  lemma RecipesWellFormed(recipe: Item, isBasic: bool)
    requires Recipe(recipe, isBasic).Some?
    ensures var needs := Recipe(recipe, isBasic).value;
      && Distinct(needs)
      && Needed(needs, recipe) == 0
      && forall k :: 0 <= k < |needs| ==> needs[k].amount > 0
  {
  }

  /** With distinct items, what a list needs of an item is the amount on its
      line, or nothing when it has no line. */
  lemma {:induction false} NeededOfDistinct(needs: seq<Need>, i: Item)
    requires Distinct(needs)
    ensures (forall k :: 0 <= k < |needs| ==> needs[k].item != i) ==> Needed(needs, i) == 0
    ensures forall k :: 0 <= k < |needs| && needs[k].item == i ==> Needed(needs, i) == needs[k].amount
  {
    if |needs| > 0 {
      NeededOfDistinct(needs[1..], i);
      assert forall k :: 1 <= k < |needs| ==> needs[k] == needs[1..][k - 1];
    }
  }

  /** Takes every ingredient line out of the inventory, one line at a time. */
  function Withdraw(inv: Bag, needs: seq<Need>): (r: Bag)
    ensures forall i :: Count(r, i) == Count(inv, i) - Needed(needs, i)
    decreases |needs|
  {
    if |needs| == 0 then inv
    else Withdraw(Add(inv, needs[0].item, -(needs[0].amount as int)), needs[1..])
  }

  datatype CraftOutcome = UnknownRecipe | MissingMaterials | Crafted

  /** `craftFromTable`: an unknown recipe or a missing ingredient leaves the
      inventory as it was; otherwise each ingredient is taken out in its
      recipe amount and the crafted item goes up by one. */
  function Craft(inv: Bag, recipe: Item, isBasic: bool): (res: (Bag, CraftOutcome))
    ensures res.1 == UnknownRecipe <==> Recipe(recipe, isBasic).None?
    ensures res.1 == Crafted <==> Recipe(recipe, isBasic).Some? && Affordable(inv, Recipe(recipe, isBasic).value)
    ensures res.1 != Crafted ==> res.0 == inv
    ensures res.1 == Crafted ==>
      var needs := Recipe(recipe, isBasic).value;
      && Count(res.0, recipe) == Count(inv, recipe) + 1
      && (forall k :: 0 <= k < |needs| ==>
            Count(res.0, needs[k].item) == Count(inv, needs[k].item) - needs[k].amount)
      && (forall i :: i != recipe && Needed(needs, i) == 0 ==> Count(res.0, i) == Count(inv, i))
    ensures NonNegative(inv) ==> NonNegative(res.0)
  {
    match Recipe(recipe, isBasic)
    case None => (inv, UnknownRecipe)
    case Some(needs) =>
      if !Affordable(inv, needs) then (inv, MissingMaterials)
      else
        RecipesWellFormed(recipe, isBasic);
        var taken := Withdraw(inv, needs);
        var r := Add(taken, recipe, 1);
        CraftKeepsNonNegative(inv, needs, recipe);
        (r, Crafted)
  }

  lemma CraftKeepsNonNegative(inv: Bag, needs: seq<Need>, recipe: Item)
    requires Distinct(needs) && Affordable(inv, needs) && Needed(needs, recipe) == 0
    requires forall k :: 0 <= k < |needs| ==> needs[k].amount > 0
    ensures var r := Add(Withdraw(inv, needs), recipe, 1);
      && (forall k :: 0 <= k < |needs| ==> Count(r, needs[k].item) == Count(inv, needs[k].item) - needs[k].amount)
      && (NonNegative(inv) ==> NonNegative(r))
  {
    var r := Add(Withdraw(inv, needs), recipe, 1);
    forall k | 0 <= k < |needs|
      ensures Count(r, needs[k].item) == Count(inv, needs[k].item) - needs[k].amount
    {
      NeededOfDistinct(needs, needs[k].item);
    }
    if NonNegative(inv) {
      forall i | i in r
        ensures r[i] >= 0
      {
        NeededOfDistinct(needs, i);
        assert r[i] == Count(r, i);
        if k :| 0 <= k < |needs| && needs[k].item == i {
          assert Count(inv, i) >= needs[k].amount;
        } else {
          assert Needed(needs, i) == 0;
        }
      }
    }
  }

  /** `equipTool`: the hand is always available, another tool only while the
      inventory holds one. */
  function Equip(inv: Bag, current: Tool, t: Tool): (r: Tool)
    ensures r == t <==> t == Hand || Count(inv, ToolItem(t)) > 0 || t == current
    ensures r != t ==> r == current
  {
    if t == Hand || Count(inv, ToolItem(t)) > 0 then t else current
  }

  /** `selectBlock`: only a placeable block the inventory holds can be selected. */
  function Select(inv: Bag, current: Option<Block>, b: Block): (r: Option<Block>)
    ensures r == Some(b) <==> (Placeable(b) && Count(inv, Of(b)) > 0) || current == Some(b)
    ensures r != Some(b) ==> r == current
  {
    if Placeable(b) && Count(inv, Of(b)) > 0 then Some(b) else current
  }
}

=== FILE: noise.dfy ===
/** The value-noise field behind terrain height, caves and ores (game.js:47-64):
    a hash of the four surrounding lattice points, bilinearly interpolated. */
module Noise {

  /** The lattice hash `hash2D`, whose `Math.sin` is not modelled: it is taken
      as a parameter, and the game's `fract` keeps its values in [0, 1). */
  type Hash = (int, int) -> real

  ghost predicate InUnit(hash: Hash)
  {
    forall x, y :: 0.0 <= hash(x, y) < 1.0
  }

  /** Fractional part: what is left after removing the largest integer not above `v`. */
  function Fract(v: real): (f: real)
    ensures 0.0 <= f < 1.0
    ensures (v - f).Floor as real == v - f
  {
    v - v.Floor as real
  }

  /** Linear interpolation from `a` (at t = 0) to `b` (at t = 1). */
  function Lerp(a: real, b: real, t: real): real
  {
    a + (b - a) * t
  }

  /** The game's `caveNoise(col, row)`. */
  function CaveNoise(hash: Hash, x: real, y: real): real
  {
    var x0, y0 := x.Floor, y.Floor;
    var sx, sy := Fract(x), Fract(y);
    var ix0 := Lerp(hash(x0, y0), hash(x0 + 1, y0), sx);
    var ix1 := Lerp(hash(x0, y0 + 1), hash(x0 + 1, y0 + 1), sx);
    Lerp(ix0, ix1, sy)
  }

  /** On a lattice line the field is the one-dimensional interpolation between
      the two lattice points around the sample, so neighbouring cells agree
      along their shared edge. */
  lemma CaveNoiseOnLatticeLines(hash: Hash, x: real, y: real)
    ensures x.Floor as real == x ==>
      CaveNoise(hash, x, y) == Lerp(hash(x.Floor, y.Floor), hash(x.Floor, y.Floor + 1), Fract(y))
    ensures y.Floor as real == y ==>
      CaveNoise(hash, x, y) == Lerp(hash(x.Floor, y.Floor), hash(x.Floor + 1, y.Floor), Fract(x))
  {
    var x0, y0 := x.Floor, y.Floor;
    if Fract(x) == 0.0 {
      assert Lerp(hash(x0, y0), hash(x0 + 1, y0), Fract(x)) == hash(x0, y0);
      assert Lerp(hash(x0, y0 + 1), hash(x0 + 1, y0 + 1), Fract(x)) == hash(x0, y0 + 1);
    }
  }

  /** An interpolation with weight in [0, 1] stays between its end points. */
  lemma LerpBetween(a: real, b: real, t: real)
    requires 0.0 <= t <= 1.0
    ensures a <= b ==> a <= Lerp(a, b, t) <= b
    ensures b <= a ==> b <= Lerp(a, b, t) <= a
  {
    if a <= b {
      ProductNonNegative(b - a, t);
      ProductNonNegative(b - a, 1.0 - t);
    } else {
      ProductNonNegative(a - b, t);
      ProductNonNegative(a - b, 1.0 - t);
    }
  }

  lemma ProductNonNegative(p: real, q: real)
    requires p >= 0.0 && q >= 0.0
    ensures p * q >= 0.0
  {
  }

  /** Noise values stay in [0, 1) whenever the hash does: bilinear interpolation
      is a convex combination of the four corner hashes. */
  lemma CaveNoiseInUnit(hash: Hash, x: real, y: real)
    requires InUnit(hash)
    ensures 0.0 <= CaveNoise(hash, x, y) < 1.0
  {
    var x0, y0 := x.Floor, y.Floor;
    var sx, sy := Fract(x), Fract(y);
    var ix0 := Lerp(hash(x0, y0), hash(x0 + 1, y0), sx);
    var ix1 := Lerp(hash(x0, y0 + 1), hash(x0 + 1, y0 + 1), sx);
    LerpBetween(hash(x0, y0), hash(x0 + 1, y0), sx);
    LerpBetween(hash(x0, y0 + 1), hash(x0 + 1, y0 + 1), sx);
    LerpBetween(ix0, ix1, sy);
  }

  /** At a lattice point the noise is exactly the hash there: the field
      interpolates the hash rather than smoothing it away. */
  lemma CaveNoiseAtLattice(hash: Hash, i: int, j: int)
    ensures CaveNoise(hash, i as real, j as real) == hash(i, j)
  {
    assert (i as real).Floor == i;
    assert (j as real).Floor == j;
  }
}

=== FILE: terrain.dfy ===
/** Column generation (game.js:67-133): height from noise and a sine wave,
    biome layers filled top-down, caves carved below the surface, ores
    seeded in fixed row bands, and an occasional tree on top. */
module Terrain {
  import opened Blocks
  import Noise

  const TotalRows: nat := 100
  const MinGround: int := 5
  const MaxGround: int := TotalRows - 10
  /** Ground deeper than this (a larger row number) is "high" ground: rock or ice on top. */
  const HighGround: int := 25
  const CaveThreshold: real := 0.3

  datatype Biome = Forest | Desert | Tundra

  /** One vertical slice of the world, row 0 at the top. Player edits set
      `modified`, and only unmodified columns are ever evicted. */
  datatype Column = Column(cells: seq<Block>, modified: bool)

  /** The session-fixed inputs of generation: the biome, the lattice hash, and
      `sine(col)`, which stands for `Math.sin(col * 0.05)`. */
  datatype Landscape = Landscape(biome: Biome, hash: Noise.Hash, sine: int -> real)

  /** The `Math.random` draws one generation consumes: `moss(r)` for the
      mossy-stone chance at row r and `tree` for the tree chance. */
  datatype Draws = Draws(moss: int -> real, tree: real)

  predicate WellFormed(c: Column)
  {
    |c.cells| == TotalRows
  }

  /** Reading a row of a column; rows outside the column read as nothing
      (the source's `undefined`). */
  function CellAt(c: Column, row: int): (b: Option<Block>)
    ensures b.Some? <==> 0 <= row < |c.cells|
    ensures b.Some? ==> b.value == c.cells[row]
  {
    if 0 <= row < |c.cells| then Some(c.cells[row]) else None
  }

  /** Writing a row; a row outside the column is dropped. */
  function Put(cells: seq<Block>, row: int, b: Block): (r: seq<Block>)
    ensures |r| == |cells|
    ensures forall i :: 0 <= i < |cells| ==> r[i] == (if i == row then b else cells[i])
  {
    if 0 <= row < |cells| then cells[row := b] else cells
  }

  /** The unclamped height, before flooring. */
  function ExactHeight(land: Landscape, col: int): real
  {
    20.0 + 15.0 * (Noise.CaveNoise(land.hash, col as real * 0.1, 0.0) - 0.5) + land.sine(col) * 5.0
  }

  /** The ground row: the exact height floored (not rounded), then clamped to [5, 90]. */
  function Ground(land: Landscape, col: int): (g: int)
    ensures MinGround <= g <= MaxGround
    ensures var e := ExactHeight(land, col);
      MinGround as real <= e < (MaxGround + 1) as real ==> g as real <= e < g as real + 1.0
    ensures ExactHeight(land, col) < MinGround as real ==> g == MinGround
    ensures ExactHeight(land, col) >= (MaxGround + 1) as real ==> g == MaxGround
  {
    var raw := ExactHeight(land, col).Floor;
    if raw < MinGround then MinGround else if raw > MaxGround then MaxGround else raw
  }

  /** With the hash in [0, 1) and a genuine sine value in [-1, 1] the clamp
      never bites: the ground lies between rows 7 and 32. */
  lemma GroundNaturalRange(land: Landscape, col: int)
    requires Noise.InUnit(land.hash)
    requires -1.0 <= land.sine(col) <= 1.0
    ensures 7 <= Ground(land, col) <= 32
  {
    Noise.CaveNoiseInUnit(land.hash, col as real * 0.1, 0.0);
  }

  /** The block on top of the ground for a biome. */
  function Surface(biome: Biome, g: int): (s: Block)
    ensures s != Air && s != Stone && !IsOre(s) && s != MossyStone
    ensures biome == Forest ==> s in {Grass, Rock}
    ensures biome == Desert ==> s == Sand
    ensures biome == Tundra ==> s in {Snow, Ice}
    ensures s in {Grass, Snow} <==> biome != Desert && g <= HighGround
  {
    match biome
    case Forest => if g > HighGround then Rock else Grass
    case Desert => Sand
    case Tundra => if g > HighGround then Ice else Snow
  }

  /** The block of the three rows under the surface. */
  function Subsurface(biome: Biome, g: int): (s: Block)
    ensures s != Air && !IsOre(s) && s != MossyStone
    ensures s in {Dirt, Sandstone, Stone}
    ensures s == Dirt <==> Surface(biome, g) == Grass
    ensures s == Sandstone <==> biome == Desert
  {
    match biome
    case Forest => if Surface(biome, g) == Grass then Dirt else Stone
    case Desert => Sandstone
    case Tundra => Stone
  }

  /** Top-down fill: air, the surface row, three subsurface rows, then stone. */
  function Layers(biome: Biome, g: int): seq<Block>
  {
    seq(TotalRows, r => if r < g then Air else if r == g then Surface(biome, g)
                        else if r <= g + 3 then Subsurface(biome, g) else Stone)
  }

  /** Exactly the rows above the ground are air, and the ground row holds the
      surface block. */
  lemma LayersShape(biome: Biome, g: int)
    ensures |Layers(biome, g)| == TotalRows
    ensures forall i :: 0 <= i < TotalRows ==> (Layers(biome, g)[i] == Air <==> i < g)
    ensures 0 <= g < TotalRows ==> Layers(biome, g)[g] == Surface(biome, g)
  {
    assert Surface(biome, g) != Air && Subsurface(biome, g) != Air;
  }

  /** Applies `rule` to every row in [lo, hi) and keeps the others. */
  function Rewrite(cells: seq<Block>, lo: int, hi: int, rule: (int, Block) -> Block): (r: seq<Block>)
    ensures |r| == |cells|
    ensures forall i :: 0 <= i < |cells| ==> r[i] == (if lo <= i < hi then rule(i, cells[i]) else cells[i])
  {
    seq(|cells|, i requires 0 <= i < |cells| => if lo <= i < hi then rule(i, cells[i]) else cells[i])
  }

  /** Cave carving: below the surface and above the last three rows, a low noise sample makes air. */
  function Carve(land: Landscape, col: int): (cells: seq<Block>)
    ensures |cells| == TotalRows
    ensures var g := Ground(land, col);
      && (forall r :: 0 <= r < g ==> cells[r] == Air)
      && cells[g] == Surface(land.biome, g)
      && (forall r :: g < r <= g + 3 ==> cells[r] in {Subsurface(land.biome, g), Air})
      && (forall r :: g + 3 < r < TotalRows - 3 ==> cells[r] in {Stone, Air})
      && (forall r :: TotalRows - 3 <= r < TotalRows ==> cells[r] == Stone)
    ensures forall r :: Ground(land, col) < r < TotalRows - 3 ==>
      (cells[r] == Air <==> Noise.CaveNoise(land.hash, col as real * 0.2, r as real * 0.2) < CaveThreshold)
  {
    var g := Ground(land, col);
    LayersShape(land.biome, g);
    Rewrite(Layers(land.biome, g), g + 1, TotalRows - 3, (r, b) => Hollowed(land, col, r, b))
  }

  /** The cave rule at row `r`: a low sample makes air. */
  function Hollowed(land: Landscape, col: int, r: int, b: Block): Block
  {
    if Noise.CaveNoise(land.hash, col as real * 0.2, r as real * 0.2) < CaveThreshold then Air else b
  }

  /** One ore pass: inside its band, a stone cell whose noise sample (at the
      pass's decorrelating offset) is under the threshold becomes `ore`. */
  function OrePass(land: Landscape, col: int, cells: seq<Block>, lo: int, hi: int,
                   ore: Block, scale: real, offset: real, threshold: real): (r: seq<Block>)
    ensures |r| == |cells|
    ensures forall i :: 0 <= i < |cells| ==>
      r[i] == cells[i] || (cells[i] == Stone && r[i] == ore && lo <= i < hi)
    ensures forall i :: lo <= i < hi && 0 <= i < |cells| && cells[i] == Stone ==>
      r[i] == (if Noise.CaveNoise(land.hash, col as real * scale + offset, i as real * scale) < threshold then ore else Stone)
  {
    Rewrite(cells, lo, hi, (r, b) => Seeded(land, col, r, b, ore, scale, offset, threshold))
  }

  /** The ore rule at row `r`: stone under a low sample becomes `ore`. */
  function Seeded(land: Landscape, col: int, r: int, b: Block,
                  ore: Block, scale: real, offset: real, threshold: real): Block
  {
    if b == Stone && Noise.CaveNoise(land.hash, col as real * scale + offset, r as real * scale) < threshold then ore else b
  }

  /** The coal pass, which also turns a rare stone cell into mossy stone. */
  function CoalPass(land: Landscape, col: int, cells: seq<Block>, moss: int -> real): (r: seq<Block>)
    ensures |r| == |cells|
    ensures forall i :: 0 <= i < |cells| ==>
      r[i] == cells[i] || (cells[i] == Stone && r[i] in {CoalOre, MossyStone} && Ground(land, col) + 4 <= i < 70)
    ensures forall i :: Ground(land, col) + 4 <= i < 70 && 0 <= i < |cells| && cells[i] == Stone ==>
      r[i] == (if Noise.CaveNoise(land.hash, col as real * 0.2 + 1000.0, i as real * 0.2) < 0.1 then CoalOre
               else if moss(i) < 0.005 then MossyStone
               else Stone)
  {
    Rewrite(cells, Ground(land, col) + 4, 70, (r, b) => Speckled(land, col, r, b, moss))
  }

  /** The coal rule at row `r`: stone under a low sample becomes coal, and
      otherwise mossy stone under a low moss draw. */
  function Speckled(land: Landscape, col: int, r: int, b: Block, moss: int -> real): Block
  {
    if b == Stone && Noise.CaveNoise(land.hash, col as real * 0.2 + 1000.0, r as real * 0.2) < 0.1 then CoalOre
    else if b == Stone && moss(r) < 0.005 then MossyStone
    else b
  }

  /** The row band an ore may occupy in a column whose ground is at row `g`;
      false for every block that is not an ore. */
  predicate InBand(b: Block, r: int, g: int)
  {
    match b
    case CoalOre => g + 4 <= r < 70
    case MossyStone => g + 4 <= r < 70
    case IronOre => 40 <= r < 70
    case GoldOre => 60 <= r < 90
    case DiamondOre => 80 <= r < 95
    case _ => false
  }

  /** Row `r` of a mined column either kept its carved block or is an ore, in
      its band, that replaced stone. */
  predicate MinedFrom(carved: Block, mined: Block, r: int, g: int)
  {
    mined == carved || (carved == Stone && InBand(mined, r, g))
  }

  /** One ore pass keeps every row mined-from the carved column. */
  lemma OrePassKeepsOrigin(carved: seq<Block>, before: seq<Block>, after: seq<Block>,
                           g: int, lo: int, hi: int, ore: Block)
    requires |carved| == |before| == |after|
    requires forall r :: 0 <= r < |carved| ==> MinedFrom(carved[r], before[r], r, g)
    requires forall r :: 0 <= r < |before| ==>
      after[r] == before[r] || (before[r] == Stone && after[r] == ore && lo <= r < hi)
    requires forall r :: lo <= r < hi ==> InBand(ore, r, g)
    ensures forall r :: 0 <= r < |carved| ==> MinedFrom(carved[r], after[r], r, g)
  {
    forall r | 0 <= r < |carved|
      ensures MinedFrom(carved[r], after[r], r, g)
    {
      if after[r] != before[r] {
        assert before[r] == Stone && !InBand(Stone, r, g);
      }
    }
  }

  /** After the coal pass: coal and mossy stone replace stone only in their band. */
  function Coaled(land: Landscape, col: int, moss: int -> real): (cells: seq<Block>)
    ensures |cells| == TotalRows
    ensures var carved, g := Carve(land, col), Ground(land, col);
      forall r :: 0 <= r < TotalRows ==> MinedFrom(carved[r], cells[r], r, g)
  {
    CoalPass(land, col, Carve(land, col), moss)
  }

  /** After the iron pass. */
  function Ironed(land: Landscape, col: int, moss: int -> real): (cells: seq<Block>)
    ensures |cells| == TotalRows
    ensures var carved, g := Carve(land, col), Ground(land, col);
      forall r :: 0 <= r < TotalRows ==> MinedFrom(carved[r], cells[r], r, g)
  {
    var coal := Coaled(land, col, moss);
    var iron := OrePass(land, col, coal, 40, 70, IronOre, 0.15, 2000.0, 0.05);
    OrePassKeepsOrigin(Carve(land, col), coal, iron, Ground(land, col), 40, 70, IronOre);
    iron
  }

  /** After the gold pass. */
  function Golded(land: Landscape, col: int, moss: int -> real): (cells: seq<Block>)
    ensures |cells| == TotalRows
    ensures var carved, g := Carve(land, col), Ground(land, col);
      forall r :: 0 <= r < TotalRows ==> MinedFrom(carved[r], cells[r], r, g)
  {
    var iron := Ironed(land, col, moss);
    var gold := OrePass(land, col, iron, 60, 90, GoldOre, 0.1, 3000.0, 0.03);
    OrePassKeepsOrigin(Carve(land, col), iron, gold, Ground(land, col), 60, 90, GoldOre);
    gold
  }

  /** The column after caves and all four ore passes: every ore lies in its
      band where the carved column had stone, and every other row is as carved. */
  function Mine(land: Landscape, col: int, moss: int -> real): (cells: seq<Block>)
    ensures |cells| == TotalRows
    ensures var carved, g := Carve(land, col), Ground(land, col);
      forall r :: 0 <= r < TotalRows ==> MinedFrom(carved[r], cells[r], r, g)
  {
    var gold := Golded(land, col, moss);
    var diamond := OrePass(land, col, gold, 80, 95, DiamondOre, 0.05, 4000.0, 0.02);
    OrePassKeepsOrigin(Carve(land, col), gold, diamond, Ground(land, col), 80, 95, DiamondOre);
    diamond
  }

  /** The gold sample of row `r` is low and the row lies in the gold band's lower part. */
  predicate GoldSampled(land: Landscape, col: int, r: int)
  {
    r < 90 && Noise.CaveNoise(land.hash, col as real * 0.1 + 3000.0, r as real * 0.1) < 0.03
  }

  /** The diamond sample of row `r` is low and the row lies in the diamond band. */
  predicate DiamondSampled(land: Landscape, col: int, r: int)
  {
    80 <= r < 95 && Noise.CaveNoise(land.hash, col as real * 0.05 + 4000.0, r as real * 0.05) < 0.02
  }

  /** From row 70 down only the gold and diamond passes reach: a carved stone
      row becomes gold under a low gold sample, else diamond under a low
      diamond sample, else stays stone; every other row is as carved. */
  lemma DeepOre(land: Landscape, col: int, moss: int -> real, r: int)
    requires 70 <= r < TotalRows
    ensures var carved := Carve(land, col);
      Mine(land, col, moss)[r] ==
        if carved[r] != Stone then carved[r]
        else if GoldSampled(land, col, r) then GoldOre
        else if DiamondSampled(land, col, r) then DiamondOre
        else Stone
  {
    var carved := Carve(land, col);
    var coal := Coaled(land, col, moss);
    assert coal[r] == carved[r];
    var iron := Ironed(land, col, moss);
    assert iron == OrePass(land, col, coal, 40, 70, IronOre, 0.15, 2000.0, 0.05);
    assert iron[r] == carved[r];
    var gold := Golded(land, col, moss);
    assert gold == OrePass(land, col, iron, 60, 90, GoldOre, 0.1, 3000.0, 0.03);
    assert Mine(land, col, moss) == OrePass(land, col, gold, 80, 95, DiamondOre, 0.05, 4000.0, 0.02);
  }

  /** `DeepOre` for every row from 70 down. */
  lemma DeepOres(land: Landscape, col: int, moss: int -> real)
    ensures var carved, mined := Carve(land, col), Mine(land, col, moss);
      forall r :: 70 <= r < TotalRows ==>
        mined[r] == if carved[r] != Stone then carved[r]
                    else if GoldSampled(land, col, r) then GoldOre
                    else if DiamondSampled(land, col, r) then DiamondOre
                    else Stone
  {
    forall r | 70 <= r < TotalRows
      ensures Mine(land, col, moss)[r] ==
        if Carve(land, col)[r] != Stone then Carve(land, col)[r]
        else if GoldSampled(land, col, r) then GoldOre
        else if DiamondSampled(land, col, r) then DiamondOre
        else Stone
    {
      DeepOre(land, col, moss, r);
    }
  }

  /** A trunk of two `trunk` blocks on top of the ground and a `crown` above it. */
  function Tree(cells: seq<Block>, g: int, trunk: Block, crown: Block): seq<Block>
  {
    var t := Put(Put(cells, g - 1, trunk), g - 2, trunk);
    if g - 3 >= 0 then Put(t, g - 3, crown) else t
  }

  /** Only the three rows above the ground change: the two nearest become
      trunk and the third the crown; rows outside the column are skipped. */
  lemma TreeShape(cells: seq<Block>, g: int, trunk: Block, crown: Block)
    ensures |Tree(cells, g, trunk, crown)| == |cells|
    ensures forall i :: 0 <= i < |cells| && !(g - 3 <= i < g) ==> Tree(cells, g, trunk, crown)[i] == cells[i]
    ensures forall i :: 0 <= i < |cells| && g - 3 <= i < g ==>
      Tree(cells, g, trunk, crown)[i] == (if i == g - 3 then crown else trunk)
  {
  }

  /** The chance of a tree on a surface block: 0.6 on grass next to a trunk,
      0.1 on other grass, 0.05 on sand, 0.08 on snow, and none elsewhere. */
  function TreeChance(surface: Block, neighbourWood: bool): real
  {
    match surface
    case Grass => if neighbourWood then 0.6 else 0.1
    case Sand => 0.05
    case Snow => 0.08
    case _ => 0.0
  }

  /** Putting the same tree twice leaves the first one. */
  lemma TreeTwice(cells: seq<Block>, g: int, trunk: Block, crown: Block)
    ensures Tree(Tree(cells, g, trunk, crown), g, trunk, crown) == Tree(cells, g, trunk, crown)
  {
    var once := Tree(cells, g, trunk, crown);
    TreeShape(cells, g, trunk, crown);
    TreeShape(once, g, trunk, crown);
    assert forall i :: 0 <= i < |once| ==> Tree(once, g, trunk, crown)[i] == once[i];
  }

  /** The chance of a tree trees cluster (more likely when the previous column
      has a trunk at the same height), desert trees are a single trunk block,
      tundra spruces have two trunk blocks and a crown. */
  function Plant(cells: seq<Block>, g: int, surface: Block, neighbourWood: bool, roll: real): (r: seq<Block>)
    requires 3 <= g < |cells|
    ensures |r| == |cells|
    ensures forall i :: 0 <= i < |cells| && !(g - 3 <= i < g) ==> r[i] == cells[i]
    ensures forall i :: g - 3 <= i < g ==> r[i] == cells[i] || r[i] in {Wood, Leaves, SpruceWood, SpruceLeaves}
    ensures surface == Sand ==> forall i :: 0 <= i < |cells| && i != g - 1 ==> r[i] == cells[i]
    ensures surface == Grass && roll < TreeChance(surface, neighbourWood) ==>
      r[g - 1] == Wood && r[g - 2] == Wood && r[g - 3] == Leaves
    ensures surface == Sand && roll < TreeChance(surface, neighbourWood) ==> r[g - 1] == Wood
    ensures surface == Snow && roll < TreeChance(surface, neighbourWood) ==>
      r[g - 1] == SpruceWood && r[g - 2] == SpruceWood && r[g - 3] == SpruceLeaves
    ensures roll >= TreeChance(surface, neighbourWood) ==> r == cells
  {
    if surface == Grass && roll < (if neighbourWood then 0.6 else 0.1) then Tree(cells, g, Wood, Leaves)
    else if surface == Sand && roll < 0.05 then Put(cells, g - 1, Wood)
    else if surface == Snow && roll < 0.08 then Tree(cells, g, SpruceWood, SpruceLeaves)
    else cells
  }

  /** A freshly generated column (game.js:70-131). `prev` is the column to the
      left if it is already in the world. Its content is described by
      `GenerateShape`. */
  function Generate(land: Landscape, col: int, prev: Option<Column>, draws: Draws): (c: Column)
    ensures WellFormed(c) && !c.modified
  {
    var g := Ground(land, col);
    var mined := Mine(land, col, draws.moss);
    var neighbourWood := prev.Some? && CellAt(prev.value, g - 1) == Some(Wood);
    Column(Plant(mined, g, Surface(land.biome, g), neighbourWood, draws.tree), false)
  }

  /** What a fresh column holds: air above the three tree rows, only tree
      blocks in them, the biome surface at the ground, stone in the last
      three rows, and below the surface only carved blocks and in-band ores
      that replaced stone; above desert sand at most the one trunk row. */
  lemma GenerateShape(land: Landscape, col: int, prev: Option<Column>, draws: Draws)
    ensures var c, g := Generate(land, col, prev, draws), Ground(land, col);
      && (forall r :: 0 <= r < g - 3 ==> c.cells[r] == Air)
      && (forall r :: g - 3 <= r < g ==> c.cells[r] in {Air, Wood, Leaves, SpruceWood, SpruceLeaves})
      && c.cells[g] == Surface(land.biome, g)
      && (forall r :: TotalRows - 3 <= r < TotalRows ==> c.cells[r] == Stone)
    ensures var c, g, carved := Generate(land, col, prev, draws), Ground(land, col), Carve(land, col);
      forall r :: g <= r < TotalRows ==> MinedFrom(carved[r], c.cells[r], r, g)
    ensures Surface(land.biome, Ground(land, col)) == Sand ==>
      forall r :: 0 <= r < Ground(land, col) - 1 ==> Generate(land, col, prev, draws).cells[r] == Air
  {
  }
}

=== FILE: tick.dfy ===
/** One frame of the game loop (game.js:800-884): input, gravity and motion,
    collision settling, the ground snap and probe, fall damage, the camera
    window, tree regrowth, animals, mobs, contact damage, animal spawning,
    regeneration and the game-over test, in the order `update` runs them. */
module Tick {
  import opened Blocks
  import opened Terrain
  import opened World
  import opened Bodies
  import opened Collision
  import opened Vitals
  import opened Fauna
  import opened Interaction

  const Gravity: real := 0.3
  const MoveSpeed: real := 2.0
  const JumpStrength: real := 8.0

  /** The movement keys held this frame: `a`, `d` and `w`. */
  datatype Keys = Keys(left: bool, right: bool, jump: bool)

  /** Everything `update` reads and writes between frames. */
  datatype Game = Game(world: World, player: Player, fall: Fall, trees: seq<CutTree>,
                       mobs: seq<Mob>, animals: seq<Animal>, lastSpawn: int, lastRegen: int, over: bool)

  /** The random draws of one frame: one turn-around roll per animal, the mob
      spawn roll and the draws of a mob spawn and an animal spawn. */
  datatype FrameDraws = FrameDraws(flips: seq<real>, mobRoll: real, mob: MobDraws, animal: AnimalDraws)

  /** The state invariant a frame keeps: generated columns are well formed,
      pending regrowths sit in edited columns, both populations are within
      their caps, the invulnerability counter is in range, health does not
      exceed the maximum and no mob heals on contact. */
  ghost predicate Sound(g: Game)
  {
    && Valid(g.world)
    && Anchored(g.world, g.trees)
    && |g.mobs| <= MaxMobs
    && |g.animals| <= MaxAnimals
    && 0 <= g.player.invuln <= InvulnTicks
    && g.player.health <= g.player.maxHealth
    && forall k :: 0 <= k < |g.mobs| ==> g.mobs[k].damage >= 0
  }

  /** The start of `update`: `a` wins over `d`, a jump leaves the ground only
      from the ground, then gravity adds to the fall speed and the player
      moves by its velocity. */
  function Steer(p: Player, k: Keys): (q: Player)
    ensures q == p.(x := q.x, y := q.y, vx := q.vx, vy := q.vy, onGround := q.onGround)
    ensures Abs(q.vx) == (if k.left || k.right then MoveSpeed else 0.0)
    ensures q.vx < 0.0 <==> k.left
    ensures q.x - p.x == q.vx && q.y - p.y == q.vy
    ensures q.vy < 0.0 <==> (k.jump && p.onGround) || p.vy + Gravity < 0.0
    ensures q.vy - Gravity == p.vy || (q.vy - Gravity == -JumpStrength && p.onGround && !q.onGround)
    ensures q.onGround ==> p.onGround
    ensures k.jump && p.onGround ==> q.vy == -JumpStrength + Gravity && !q.onGround
    ensures !(k.jump && p.onGround) ==> q.vy == p.vy + Gravity && q.onGround == p.onGround
  {
    var vx := if k.left then -MoveSpeed else if k.right then MoveSpeed else 0.0;
    var jumps := k.jump && p.onGround;
    var vy := (if jumps then -JumpStrength else p.vy) + Gravity;
    p.(x := p.x + vx, y := p.y + vy, vx := vx, vy := vy, onGround := p.onGround && !jumps)
  }

  /** The world only gains columns and keeps the ones it had. */
  ghost predicate Grows(w: World, w': World)
  {
    forall c :: c in w ==> c in w' && w'[c] == w[c]
  }

  /** What the snap and the probe may do to a player: the footprint columns
      get generated, only the height and the vertical state change, and the
      feet drop by less than five pixels. A ground top 0 to 5 pixels below
      the feet in a footprint column stops the player with its feet on a grid
      line; with none, the player keeps its height and fall speed. */
  ghost predicate Landed(w: World, p: Player, w': World, q: Player)
  {
    && Grows(w, w')
    && (forall c :: GridOf(p.x) <= c <= GridOf(p.x + PlayerWidth - 1.0) ==> c in w')
    && q.x == p.x && q.vx == p.vx
    && q.health == p.health && q.maxHealth == p.maxHealth && q.invuln == p.invuln
    && p.y <= q.y < p.y + 5.0
    && ((q.y == p.y && q.vy == p.vy) || (q.vy == 0.0 && OnGridLine(q.y + PlayerHeight)))
    && ((exists c :: GridOf(p.x) <= c <= GridOf(p.x + PlayerWidth - 1.0) && c in w'
                     && InSnapRange(p, GroundLevel(w'[c].cells))) ==>
          q.vy == 0.0 && OnGridLine(q.y + PlayerHeight))
    && ((forall c :: GridOf(p.x) <= c <= GridOf(p.x + PlayerWidth - 1.0) && c in w'
                     ==> !InSnapRange(p, GroundLevel(w'[c].cells))) ==>
          q.y == p.y && q.vy == p.vy)
  }

  /** The grounded flag is the probe's verdict one pixel below the feet. */
  ghost predicate Probed(w': World, q: Player)
  {
    q.onGround <==> exists c :: GridOf(q.x) <= c <= GridOf(q.x + PlayerWidth - 1.0)
                                && c in w' && Blocked(w', c, GridOf(q.y + PlayerHeight + 1.0))
  }

  /** The outcome of `Move`: a landing from the state after one to ten settle
      passes over the steered player, grounded by the probe. */
  ghost predicate Moved(gen: Generator, w: World, p: Player, keys: Keys, w': World, q: Player)
  {
    && (exists n :: 1 <= n <= 10 && Landed(Passes(Resolver(gen), w, Steer(p, keys), n).0,
                                          Passes(Resolver(gen), w, Steer(p, keys), n).1, w', q))
    && Probed(w', q)
  }

  /** The end of the movement part of `update` (game.js:822-823): the snap
      onto ground and the ground probe. The player snaps onto a ground top 0
      to 5 pixels below its feet in one of its columns, and is left in place
      when there is none; the grounded flag is then the probe's verdict one
      pixel below the final feet. */
  method Land(gen: Generator, w: World, p: Player) returns (w': World, q: Player)
    ensures Landed(w, p, w', q)
    ensures Valid(w) ==> Valid(w')
    ensures (exists c :: GridOf(p.x) <= c <= GridOf(p.x + PlayerWidth - 1.0) && c in w'
                        && InSnapRange(p, GroundLevel(w'[c].cells))) ==>
      q.vy == 0.0 && OnGridLine(q.y + PlayerHeight)
    ensures (forall c :: GridOf(p.x) <= c <= GridOf(p.x + PlayerWidth - 1.0) && c in w'
                        ==> !InSnapRange(p, GroundLevel(w'[c].cells))) ==> q.y == p.y && q.vy == p.vy
    ensures q.onGround <==> exists c :: GridOf(q.x) <= c <= GridOf(q.x + PlayerWidth - 1.0)
                                        && c in w' && Blocked(w', c, GridOf(q.y + PlayerHeight + 1.0))
  {
    var w1, q1 := SnapToGround(gen, w, p);
    assert Landed(w, p, w1, q1);
    w', q := CheckIfOnGround(gen, w1, q1);
    ProbeKeepsLanding(w, p, w1, q1, w', q);
  }

  /** Setting the grounded flag and generating more columns keeps a landing. */
  lemma ProbeKeepsLanding(w: World, p: Player, w1: World, q1: Player, w': World, q: Player)
    requires Landed(w, p, w1, q1)
    requires Grows(w1, w') && q == q1.(onGround := q.onGround)
    ensures Landed(w, p, w', q)
    ensures forall c :: GridOf(p.x) <= c <= GridOf(p.x + PlayerWidth - 1.0) ==> w'[c] == w1[c]
  {
  }

  /** The movement part of `update` (game.js:803-824): steering and gravity,
      the settle loop with `resolveCollisions` as its pass, then `Land`: the
      result is a landing from the state after one to ten passes over the
      steered player. */
  method Move(gen: Generator, w: World, p: Player, keys: Keys) returns (w': World, q: Player)
    ensures exists n :: 1 <= n <= 10 && Landed(Passes(Resolver(gen), w, Steer(p, keys), n).0,
                                               Passes(Resolver(gen), w, Steer(p, keys), n).1, w', q)
    ensures Grows(w, w')
    ensures Valid(w) ==> Valid(w')
    ensures q.health == p.health && q.maxHealth == p.maxHealth && q.invuln == p.invuln
    ensures q.onGround <==> exists c :: GridOf(q.x) <= c <= GridOf(q.x + PlayerWidth - 1.0)
                                        && c in w' && Blocked(w', c, GridOf(q.y + PlayerHeight + 1.0))
    ensures Moved(gen, w, p, keys, w', q)
  {
    var w1, q1 := SettleResolving(gen, w, Steer(p, keys));
    ghost var n :| 1 <= n <= 10 && (w1, q1) == Passes(Resolver(gen), w, Steer(p, keys), n);
    w', q := Land(gen, w1, q1);
  }

  /** The movement and fall-tracking part of `update` (game.js:803-837): the
      player is moved, then the fall record follows the landed player and a
      landing after a long fall costs health. */
  method Travel(gen: Generator, w: World, p: Player, f: Fall, keys: Keys)
    returns (w': World, p': Player, f': Fall)
    ensures Grows(w, w')
    ensures Valid(w) ==> Valid(w')
    ensures p'.maxHealth == p.maxHealth && p'.invuln == p.invuln && p'.health <= p.health
    ensures f'.wasOnGround == p'.onGround
    ensures exists q :: Moved(gen, w, p, keys, w', q) && (f', p') == TrackFall(f, q)
  {
    var q;
    w', q := Move(gen, w, p, keys);
    f', p' := TrackFall(f, q).0, TrackFall(f, q).1;
  }

  /** The scenery part of `update` (game.js:839-843): the camera follows the
      player, the window around it is generated and trimmed, and every due
      regrowth record fires and is dropped. */
  method Scenery(gen: Generator, w: World, trees: seq<CutTree>, camX: real, width: real, now: int)
    returns (w': World, trees': seq<CutTree>)
    requires Anchored(w, trees)
    ensures Valid(w) ==> Valid(w')
    ensures Anchored(w', trees')
    ensures var lo, hi := FirstColumn(camX), LastColumn(camX, width);
      && (forall c :: lo <= c <= hi ==> c in w')
      && (forall c :: c in w' ==> c in w || lo <= c <= hi)
      && (forall c :: c in w && (w[c].modified || lo - 5 <= c <= hi + 5) ==> c in w')
      && (forall c :: c in w' && !w'[c].modified ==> lo - 5 <= c <= hi + 5)
    ensures forall c :: c in w && c in w' && (forall k :: 0 <= k < |trees| ==> trees[k].col != c) ==> w'[c] == w[c]
    ensures forall u :: u in trees' <==> u in trees && !DueAt(trees, u.col, u.row, now)
    ensures forall u :: u in trees' ==> now < u.regrowAt
    ensures var biome := gen.land.biome;
      forall c, r :: c in w && w[c].modified && Regrows(biome, w[c], r)
                     && (forall k :: 0 <= k < |trees| && trees[k].col == c ==> trees[k].row == r) ==>
        c in w' && w'[c].cells == if DueAt(trees, c, r, now) then Tree(w[c].cells, r, Trunk(biome), Crown(biome)) else w[c].cells
  {
    var shown := EnsureVisibleRange(gen, w, camX, width);
    VisibleRangeKeepsAnchored(gen, w, trees, camX, width);
    var regrown := RegrowTrees(shown, gen.land.biome, trees, now);
    w', trees' := regrown.0, regrown.1;
    forall c | c in w && w[c].modified
      ensures c in shown && shown[c] == w[c]
    {
    }
  }

  /** The creature part of `update` (game.js:844-863): animals move, mobs
      clear or spawn and chase, the first touching mob hits once the
      invulnerability counter has run out, and an animal spawn is attempted
      when due. Both populations stay within their caps, daylight leaves no
      mob, only health and the counter of the player change, and health only
      drops while every mob does non-negative damage. */
  method Creatures(gen: Generator, w: World, p: Player, animals: seq<Animal>, mobs: seq<Mob>,
                   now: int, light: real, lastSpawn: int, d: FrameDraws)
    returns (w': World, q: Player, animals': seq<Animal>, mobs': seq<Mob>, lastSpawn': int)
    requires |d.flips| == |animals|
    requires Unit(d.animal.kind)
    ensures Grows(w, w')
    ensures Valid(w) ==> Valid(w')
    ensures |animals| <= MaxAnimals ==> |animals'| <= MaxAnimals
    ensures |mobs| <= MaxMobs ==> |mobs'| <= MaxMobs
    ensures light >= 0.5 ==> mobs' == []
    ensures q == p.(health := q.health, invuln := q.invuln)
    ensures 0 <= p.invuln <= InvulnTicks ==> 0 <= q.invuln <= InvulnTicks
    ensures (forall k :: 0 <= k < |mobs| ==> mobs[k].damage >= 0) ==>
      q.health <= p.health && forall k :: 0 <= k < |mobs'| ==> mobs'[k].damage >= 0
    ensures |animals| <= |animals'| &&
      forall k :: 0 <= k < |animals| ==> AnimalStepped(w', animals[k], d.flips[k], animals'[k])
    ensures |animals| >= MaxAnimals || now - lastSpawn <= AnimalSpawnInterval ==>
      |animals'| == |animals| && lastSpawn' == lastSpawn
    ensures |animals| < MaxAnimals && now - lastSpawn > AnimalSpawnInterval ==>
      && lastSpawn' == now
      && (|animals'| == |animals| + 1 <==>
            !(gen.land.biome == Desert && d.animal.reject < 0.7) && !(gen.land.biome == Tundra && d.animal.reject < 0.5))
    ensures |mobs'| == |mobs| + 1 <==> light < 0.3 && d.mobRoll < 0.01 && |mobs| < MaxMobs
    ensures light < 0.5 ==> |mobs| <= |mobs'| && forall k :: 0 <= k < |mobs| ==>
      && mobs'[k].vx == ChaseVelocity(mobs[k].x, p.x, mobs[k].vx)
      && mobs'[k].x == mobs[k].x + mobs'[k].vx
    ensures Cooled(p.invuln) != 0 || (forall k :: 0 <= k < |mobs'| ==> !Touching(p, mobs'[k])) ==>
      q.health == p.health && q.invuln == Cooled(p.invuln)
    ensures Cooled(p.invuln) == 0 && (exists k :: 0 <= k < |mobs'| && Touching(p, mobs'[k])) ==>
      q.invuln == InvulnTicks &&
      exists k :: 0 <= k < |mobs'| && Touching(p, mobs'[k]) && (forall j :: 0 <= j < k ==> !Touching(p, mobs'[j]))
                  && q.health == p.health - mobs'[k].damage
  {
    var w2, moved := MoveAnimals(gen, w, animals, d.flips);
    var w3;
    w3, mobs' := UpdateMobs(gen, w2, p, mobs, light, d.mobRoll, d.mob);
    q := ContactDamage(p, mobs');
    w', animals', lastSpawn' := AnimalSpawnTick(gen, w3, q, moved, now, lastSpawn, d.animal);
    forall k | 0 <= k < |animals|
      ensures AnimalStepped(w', animals[k], d.flips[k], animals'[k])
    {
      assert animals'[k] == moved[k];
      AnimalSteppedKept(w2, w', animals[k], d.flips[k], moved[k]);
    }
  }

  /** Growing the world keeps every pending regrowth anchored. */
  lemma GrowsKeepsAnchored(w: World, w': World, trees: seq<CutTree>)
    requires Grows(w, w') && Anchored(w, trees)
    ensures Anchored(w', trees)
  {
  }

  /** `gameLoop` with `update`: a paused or finished game does not change; a
      running one advances one frame, keeps the state invariant, and ends
      exactly when health has dropped to zero. Every pending regrowth must
      name a present column, as `regrowTree` indexes it unguarded. */
  method Update(gen: Generator, g: Game, keys: Keys, now: int, light: real, width: real,
                paused: bool, d: FrameDraws) returns (g': Game)
    requires |d.flips| == |g.animals|
    requires Unit(d.animal.kind)
    requires Anchored(g.world, g.trees)
    ensures paused || g.over ==> g' == g
    ensures Sound(g) ==> Sound(g')
    ensures g'.player.maxHealth == g.player.maxHealth
    ensures !paused && !g.over ==>
      && (g'.over <==> GameOver(g'.player))
      && g'.fall.wasOnGround == g'.player.onGround
      && (light >= 0.5 ==> g'.mobs == [])
      && (forall u :: u in g'.trees ==> now < u.regrowAt)
      && (forall u :: u in g'.trees ==> u in g.trees)
      && (forall u :: u in g'.trees <==> u in g.trees && !DueAt(g.trees, u.col, u.row, now))
      && (exists w1, q :: Moved(gen, g.world, g.player, keys, w1, q)
                          && g'.fall == TrackFall(g.fall, q).0
                          && g'.player == q.(health := g'.player.health, invuln := g'.player.invuln))
      && (var camX := g'.player.x - width / 2.0;
          forall c :: FirstColumn(camX) <= c <= LastColumn(camX, width) ==> c in g'.world)
  {
    if paused || g.over {
      return g;
    }
    var w, p, fall := Travel(gen, g.world, g.player, g.fall, keys);
    GrowsKeepsAnchored(g.world, w, g.trees);
    var camX := p.x - width / 2.0;
    var w1, trees := Scenery(gen, w, g.trees, camX, width, now);
    var w4, q, animals', mobs, lastSpawn := Creatures(gen, w1, p, g.animals, g.mobs, now, light, g.lastSpawn, d);
    var regen := Regen(q, now, g.lastRegen);
    GrowsKeepsAnchored(w1, w4, trees);
    g' := Game(w4, regen.0, fall, trees, mobs, animals', lastSpawn, regen.1, GameOver(regen.0));
  }
}

=== FILE: vitals.dfy ===
/** The player's health rules inside the update tick (game.js:826-871) and
    eating (game.js:1110-1116): fall damage, mob contact under an
    invulnerability counter, slow regeneration, and meat. */
module Vitals {
  import opened Blocks
  import opened World
  import opened Bodies
  import opened Inventory

  /** Falls of up to this many blocks are free. */
  const SafeFall: real := 8.0
  /** Ticks of invulnerability after a mob hit. */
  const InvulnTicks: int := 60
  /** Milliseconds that must pass between two regenerated health points. */
  const RegenInterval: int := 10000
  /** Health one piece of meat restores. */
  const MeatHealth: int := 20

  /** What the tick remembers between frames about falling: whether the player
      stood on the ground last tick, and the highest point (smallest y) of the
      current flight. */
  datatype Fall = Fall(wasOnGround: bool, minYInAir: real)

  /** Damage for a fall of `blocks` blocks: five per block beyond eight, floored. */
  function FallDamage(blocks: real): (d: int)
    ensures d >= 0
    ensures d == 0 <==> blocks < SafeFall + 0.2
    ensures blocks > SafeFall ==> d as real <= (blocks - SafeFall) * 5.0 < d as real + 1.0
  {
    if blocks > SafeFall then ((blocks - SafeFall) * 5.0).Floor else 0
  }

  /** A longer fall never hurts less. */
  lemma FallDamageMonotone(a: real, b: real)
    requires a <= b
    ensures FallDamage(a) <= FallDamage(b)
  {
    if a > SafeFall {
      assert (a - SafeFall) * 5.0 <= (b - SafeFall) * 5.0;
    }
  }

  /** The fall bookkeeping of one tick, run after the ground check: taking off
      starts a flight at the current height, flying keeps the highest point,
      and landing charges the damage of the drop from that highest point. */
  function TrackFall(f: Fall, p: Player): (res: (Fall, Player))
    ensures res.0.wasOnGround == p.onGround
    ensures res.1 == p.(health := res.1.health)
    ensures !p.onGround ==> res.0.minYInAir <= p.y && res.1.health == p.health
    ensures !p.onGround && !f.wasOnGround ==> res.0.minYInAir == Min(f.minYInAir, p.y)
    ensures !p.onGround && f.wasOnGround ==> res.0.minYInAir == p.y
    ensures p.onGround && f.wasOnGround ==> res == (f, p)
    ensures p.onGround && !f.wasOnGround ==>
      res.1.health == p.health - FallDamage((p.y - f.minYInAir) / BlockSize)
  {
    var minY := if f.wasOnGround && !p.onGround then p.y
                else if !p.onGround then Min(f.minYInAir, p.y)
                else f.minYInAir;
    var q := if !f.wasOnGround && p.onGround then p.(health := p.health - FallDamage((p.y - minY) / BlockSize)) else p;
    (Fall(p.onGround, minY), q)
  }

  /** Jumping off a ledge and landing ten blocks below the take-off point,
      after any number of airborne ticks that never rise above it, costs ten
      health. */
  lemma TenBlockDrop(standing: Player, flight: seq<Player>, landing: Player)
    requires standing.onGround
    requires forall k :: 0 <= k < |flight| ==> !flight[k].onGround && flight[k].y >= standing.y
    requires |flight| > 0 && flight[0].y == standing.y
    requires landing.onGround && landing.y == standing.y + 10.0 * BlockSize
    ensures var f := Fly(TrackFall(Fall(true, 0.0), standing).0, flight);
      TrackFall(f, landing).1.health == landing.health - 10
  {
    var f0 := TrackFall(Fall(true, 0.0), standing).0;
    FlyKeepsHighest(f0, flight);
    var f := Fly(f0, flight);
    assert f.minYInAir == standing.y;
    assert (landing.y - f.minYInAir) / BlockSize == 10.0;
  }

  /** The fall state after a sequence of ticks. */
  function Fly(f: Fall, ticks: seq<Player>): Fall
    decreases |ticks|
  {
    if |ticks| == 0 then f else Fly(TrackFall(f, ticks[0]).0, ticks[1..])
  }

  /** Through a flight that starts with a take-off, the remembered height is
      the take-off height when no tick rises above it. */
  lemma {:induction false} FlyKeepsHighest(f: Fall, flight: seq<Player>)
    requires |flight| > 0 && f.wasOnGround
    requires forall k :: 0 <= k < |flight| ==> !flight[k].onGround && flight[k].y >= flight[0].y
    ensures !Fly(f, flight).wasOnGround && Fly(f, flight).minYInAir == flight[0].y
  {
    var f1 := TrackFall(f, flight[0]).0;
    assert f1 == Fall(false, flight[0].y);
    AirborneKeepsMin(f1, flight[1..]);
  }

  lemma {:induction false} AirborneKeepsMin(f: Fall, ticks: seq<Player>)
    requires !f.wasOnGround
    requires forall k :: 0 <= k < |ticks| ==> !ticks[k].onGround && ticks[k].y >= f.minYInAir
    ensures Fly(f, ticks) == f
  {
    if |ticks| > 0 {
      assert TrackFall(f, ticks[0]).0 == f;
      AirborneKeepsMin(f, ticks[1..]);
    }
  }

  /** The player box and a mob's square overlap. */
  predicate Touching(p: Player, m: Mob)
  {
    Overlaps(PlayerBox(p), SquareBox(m.x, m.y))
  }

  /** The counter after this tick's decrement. */
  function Cooled(invuln: int): int
  {
    if invuln > 0 then invuln - 1 else invuln
  }

  /** Mob contact (game.js:846-858): the counter first counts down; then every
      touching mob hits while the counter is zero, and a hit sets it to 60, so
      only the first touching mob in the list can hit in one tick. */
  method ContactDamage(p: Player, mobs: seq<Mob>) returns (q: Player)
    ensures q == p.(health := q.health, invuln := q.invuln)
    ensures Cooled(p.invuln) != 0 || (forall k :: 0 <= k < |mobs| ==> !Touching(p, mobs[k])) ==>
      q.health == p.health && q.invuln == Cooled(p.invuln)
    ensures Cooled(p.invuln) == 0 && (exists k :: 0 <= k < |mobs| && Touching(p, mobs[k])) ==>
      q.invuln == InvulnTicks &&
      exists k :: 0 <= k < |mobs| && Touching(p, mobs[k]) && (forall j :: 0 <= j < k ==> !Touching(p, mobs[j]))
                  && q.health == p.health - mobs[k].damage
  {
    q := p.(invuln := Cooled(p.invuln));
    var hit: int := -1;
    var i := 0;
    while i < |mobs|
      invariant 0 <= i <= |mobs|
      invariant -1 <= hit < i
      invariant q == p.(health := q.health, invuln := q.invuln)
      invariant hit == -1 <==> forall j :: 0 <= j < i ==> !Touching(p, mobs[j])
      invariant hit == -1 ==> q.health == p.health && q.invuln == Cooled(p.invuln)
      invariant hit >= 0 ==> Touching(p, mobs[hit]) && (forall j :: 0 <= j < hit ==> !Touching(p, mobs[j]))
      invariant hit >= 0 && Cooled(p.invuln) == 0 ==> q.invuln == InvulnTicks && q.health == p.health - mobs[hit].damage
      invariant hit >= 0 && Cooled(p.invuln) != 0 ==> q.health == p.health && q.invuln == Cooled(p.invuln)
    {
      if Overlaps(PlayerBox(q), SquareBox(mobs[i].x, mobs[i].y)) {
        if q.invuln == 0 {
          q := q.(health := q.health - mobs[i].damage, invuln := InvulnTicks);
        }
        if hit == -1 {
          hit := i;
        }
      }
      i := i + 1;
    }
  }

  /** Regeneration (game.js:865-869): one point once more than ten seconds
      have passed since the last one, and only below the maximum. Returns the
      player and the new time of the last regeneration. */
  function Regen(p: Player, now: int, lastRegen: int): (res: (Player, int))
    ensures res.1 == now || res.1 == lastRegen
    ensures res.0 == p.(health := res.0.health)
    ensures res.0.health == p.health + 1 <==> now - lastRegen > RegenInterval && p.health < p.maxHealth
    ensures res.0.health != p.health + 1 ==> res == (p, lastRegen)
    ensures p.health <= p.maxHealth ==> res.0.health <= p.maxHealth
  {
    if now - lastRegen > RegenInterval && p.health < p.maxHealth then (p.(health := p.health + 1), now)
    else (p, lastRegen)
  }

  /** Eating (game.js:1110-1116): with the game running and meat in the
      inventory, one piece is used up and health rises by 20, capped at the
      maximum; otherwise nothing happens. */
  function Eat(inv: Bag, p: Player, paused: bool): (res: (Bag, Player))
    ensures res.1 == p.(health := res.1.health)
    ensures paused || Count(inv, Meat) <= 0 ==> res == (inv, p)
    ensures !paused && Count(inv, Meat) > 0 ==>
      && Count(res.0, Meat) == Count(inv, Meat) - 1
      && (forall i :: i != Meat ==> Count(res.0, i) == Count(inv, i))
      && res.1.health <= p.maxHealth
      && (res.1.health == p.health + MeatHealth || res.1.health == p.maxHealth)
      && (p.health + MeatHealth <= p.maxHealth ==> res.1.health == p.health + MeatHealth)
    ensures NonNegative(inv) ==> NonNegative(res.0)
  {
    if !paused && Count(inv, Meat) > 0 then
      var h := if p.health + MeatHealth < p.maxHealth then p.health + MeatHealth else p.maxHealth;
      (Add(inv, Meat, -1), p.(health := h))
    else (inv, p)
  }

  /** The game ends once health reaches zero. */
  predicate GameOver(p: Player)
  {
    p.health <= 0
  }
}

=== FILE: world.dfy ===
/** The sparse world store (game.js:135-164): columns are generated lazily,
    on first use, and unmodified columns far from the view are evicted. */
module World {
  import opened Blocks
  import opened Terrain

  const BlockSize: real := 20.0

  /** The world: column index to column, for the columns currently materialised. */
  type World = map<int, Column>

  /** Builds column `col` from the column to its left, if present; whatever
      it builds is a full-height, unmodified column. */
  type ColumnMaker = f: (int, Option<Column>) -> Column | forall col, prev :: WellFormed(f(col, prev)) && !f(col, prev).modified
    witness (col: int, prev: Option<Column>) => Column(seq(TotalRows, r => Air), false)

  /** Where a missing column comes from: the session's landscape, the random
      draws each column's generation would consume during the current
      operation, and the column maker the store calls. The game's maker is
      `generateColumn` over the landscape and draws; `Faithful` says so. */
  datatype Generator = Generator(land: Landscape, draws: int -> Draws, make: ColumnMaker)

  /** The maker is terrain generation over the generator's landscape and draws. */
  ghost predicate Faithful(gen: Generator)
  {
    forall col, prev :: gen.make(col, prev) == Generate(gen.land, col, prev, gen.draws(col))
  }

  /** The game's generator for a landscape and a supply of draws. */
  function GameGenerator(land: Landscape, draws: int -> Draws): (gen: Generator)
    ensures gen.land == land && gen.draws == draws
    ensures Faithful(gen)
  {
    var make := (col: int, prev: Option<Column>) => Generate(land, col, prev, draws(col));
    assert forall col, prev :: make(col, prev) == Generate(land, col, prev, draws(col));
    Generator(land, draws, make)
  }

  ghost predicate Valid(w: World)
  {
    forall c :: c in w ==> WellFormed(w[c])
  }

  /** The column to the left, if it is present; tree clustering looks at it. */
  function Left(w: World, col: int): Option<Column>
  {
    if col - 1 in w then Some(w[col - 1]) else None
  }

  /** `generateColumn`: generates `col` if it is absent, and otherwise does
      nothing at all. */
  function EnsureColumn(gen: Generator, w: World, col: int): (w': World)
    ensures w'.Keys == w.Keys + {col}
    ensures forall c :: c in w ==> w'[c] == w[c]
    ensures col in w ==> w' == w
    ensures col !in w ==> WellFormed(w'[col]) && !w'[col].modified
    ensures Valid(w) ==> Valid(w')
  {
    if col in w then w else w[col := gen.make(col, Left(w, col))]
  }

  /** Generates every missing column from `lo` to `hi`, left to right. */
  function GenerateSpan(gen: Generator, w: World, lo: int, hi: int): (w': World)
    ensures forall c :: c in w' <==> c in w || lo <= c <= hi
    ensures forall c :: c in w ==> w'[c] == w[c]
    ensures forall c :: c in w' && c !in w ==> WellFormed(w'[c]) && !w'[c].modified
    ensures (forall c :: lo <= c <= hi ==> c in w) ==> w' == w
    ensures Valid(w) ==> Valid(w')
    decreases hi - lo + 1
  {
    if lo > hi then w else GenerateSpan(gen, EnsureColumn(gen, w, lo), lo + 1, hi)
  }

  /** Drops every unmodified column outside [lo, hi]. */
  function Evict(w: World, lo: int, hi: int): (w': World)
    ensures forall c :: c in w' ==> c in w && w'[c] == w[c]
    ensures forall c :: c in w ==> (c in w' <==> w[c].modified || lo <= c <= hi)
  {
    map c | c in w && (w[c].modified || lo <= c <= hi) :: w[c]
  }

  /** First and last column of the generation window for a camera at `camX`
      and a view `width` pixels wide: the visible columns plus five on each side. */
  function FirstColumn(camX: real): (c: int)
    ensures (c + 5) as real * BlockSize <= camX < (c + 6) as real * BlockSize
  {
    (camX / BlockSize).Floor - 5
  }

  function LastColumn(camX: real, width: real): (c: int)
    ensures (c - 5) as real * BlockSize <= camX + width < (c - 4) as real * BlockSize
  {
    ((camX + width) / BlockSize).Floor + 5
  }

  /** `ensureWorldForVisibleRange`: fills the window, then evicts the
      unmodified columns more than five columns outside it. */
  function EnsureVisibleRange(gen: Generator, w: World, camX: real, width: real): (w': World)
    ensures var lo, hi := FirstColumn(camX), LastColumn(camX, width);
      && (forall c :: lo <= c <= hi ==> c in w')
      && (forall c :: c in w' ==> c in w || lo <= c <= hi)
      && (forall c :: c in w && c in w' ==> w'[c] == w[c])
      && (forall c :: c in w && w[c].modified ==> c in w')
      && (forall c :: c in w && lo - 5 <= c <= hi + 5 ==> c in w')
      && (forall c :: c in w' && !w'[c].modified ==> lo - 5 <= c <= hi + 5)
    ensures Valid(w) ==> Valid(w')
  {
    var lo, hi := FirstColumn(camX), LastColumn(camX, width);
    Evict(GenerateSpan(gen, w, lo, hi), lo - 5, hi + 5)
  }

  /** Asking for the same view twice changes nothing the second time. */
  lemma EnsureVisibleRangeIdempotent(gen: Generator, w: World, camX: real, width: real)
    ensures var once := EnsureVisibleRange(gen, w, camX, width);
      EnsureVisibleRange(gen, once, camX, width) == once
  {
    var lo, hi := FirstColumn(camX), LastColumn(camX, width);
    var once := EnsureVisibleRange(gen, w, camX, width);
    assert GenerateSpan(gen, once, lo, hi) == once;
    var twice := Evict(once, lo - 5, hi + 5);
    assert twice.Keys == once.Keys;
  }

  /** The first non-air row of a column, scanning down from row 0, or the
      column's height when it is all air. */
  function GroundLevel(cells: seq<Block>): (r: nat)
    ensures r <= |cells|
    ensures forall i :: 0 <= i < r ==> cells[i] == Air
    ensures r < |cells| ==> cells[r] != Air
  {
    if |cells| == 0 || cells[0] != Air then 0
    else 1 + GroundLevel(cells[1..])
  }

  /** The ground level is the only row that is non-air with nothing but air above. */
  lemma GroundLevelUnique(cells: seq<Block>, k: nat)
    requires k <= |cells|
    requires forall i :: 0 <= i < k ==> cells[i] == Air
    requires k < |cells| ==> cells[k] != Air
    ensures GroundLevel(cells) == k
  {
  }

  /** `getGroundLevel`: generates the column if needed, then scans it. */
  function GetGroundLevel(gen: Generator, w: World, col: int): (res: (World, nat))
    ensures res.0 == EnsureColumn(gen, w, col)
    ensures col in res.0 && res.1 <= |res.0[col].cells|
    ensures forall i :: 0 <= i < res.1 ==> res.0[col].cells[i] == Air
    ensures res.1 < |res.0[col].cells| ==> res.0[col].cells[res.1] != Air
  {
    var w' := EnsureColumn(gen, w, col);
    (w', GroundLevel(w'[col].cells))
  }

  /** On a column the game's generator has just built, the scan stops at or
      above the generated ground, never at the all-air sentinel. */
  lemma FreshGroundLevel(gen: Generator, w: World, col: int)
    requires Faithful(gen) && col !in w
    ensures GetGroundLevel(gen, w, col).1 <= Ground(gen.land, col) < TotalRows
  {
    GenerateShape(gen.land, col, Left(w, col), gen.draws(col));
  }

  /** `setBlock`: writes one cell of a present column and marks it modified. */
  function Edit(w: World, col: int, row: int, b: Block): (w': World)
    requires col in w
    ensures w'.Keys == w.Keys
    ensures forall c :: c in w && c != col ==> w'[c] == w[c]
    ensures w'[col].modified
    ensures |w'[col].cells| == |w[col].cells|
    ensures forall i :: 0 <= i < |w[col].cells| && i != row ==> w'[col].cells[i] == w[col].cells[i]
    ensures 0 <= row < |w[col].cells| ==> w'[col].cells[row] == b
    ensures Valid(w) ==> Valid(w')
  {
    w[col := Column(Put(w[col].cells, row, b), true)]
  }
}
